=== FILE: README.md ===
# ts-contract-plugin, modelled in Dafny

A model of the core of `ts-contract-plugin`, a protoc plugin. For every
`.proto` file that the package filters let through, it writes a TypeScript
"contract" file. That file holds one `…Input` interface per message, and each
interface lists the message's printable fields with their TypeScript types.

The model follows the source file by file:

- `naming.dfy` (module `Naming`, with `PosixPath` in `posix_path.dfy`): the
  contract file name and its `..` boundary check, the flattened interface
  name, and the `_pb` module path. The last one is built with a full model of
  Node's `path.posix.normalize` and two-argument `join`.
- `type_mapping.dfy` (module `TypeMapping`): field kind to type expression.
  A `Printable` datatype carries its import requests as part of the value.
  They are not side effects on the output file.
- `generator.dfy` (module `Generator`, with `PackageGlob` in
  `package_glob.dfy`): the skip-package matchers, message selection and
  ordering, field filtering, ordering and optionality, the blank lines
  between declarations, and the whole `generateTs` run.
- `options.dfy` (module `Options`): `parseOptions`, as a method with a loop
  proved against a functional reading.
- `validate_rules.dfy` (module `ValidateRules`): `isRequiredField`, and the
  error contract of `resolveValidateFieldExtension`.
- Support modules:
  - `wrappers.dfy`: `Option`, `Result`, and `MapResult`, the first-error
    map over a sequence.
  - `strings.dfy`: prefixes, suffixes, `includes`, `replace`, `trim`, and
    ordinal string order.
  - `descriptors.dfy`: the slice of the descriptor graph the plugin reads.
  - `errors.dfy`: every error the source throws, with its message text.

The package filters are modelled at two levels:

- `PackageGlob.CompileSource` builds the regular-expression source text
  exactly as the code does.
- `RegexMatch` and `Test` give that text its JavaScript meaning over a
  restricted pattern alphabet. `Glob` is the reading a user has in mind, and
  `CompiledMatchesIffGlob` proves the two agree.

Type mapping needs the base path of the `_pb` modules (`pbOut`). The mapper
takes it as a parameter, `Context.pbOut`:

- `GenerateTs` passes it through.
- `GenerateTsAsWritten` passes none, because the call at generator.ts:102
  gives the mapper no options to read it from.

`options.ts` accepts no `pb_out` key: any key other than `skip_pkg` is an
unknown option, and the model follows the code.

With `pbOut` supplied, the enum mapper `TypeMapping.EnumReference` uses
`pbImportPath` as written (`Naming.PbImportPathAsWritten`).
`TypeMapping.EnumReferenceCorrected` is the same mapper with the corrected
relative-specifier test.

## Model

| member | source | states |
|---|---|---|
| Naming.GenerateContractFileName | packages/ts-contract-plugin/src/naming.ts:4-15 | a successful name holds no `..`; a name ending in `.proto` gets `.contract.ts` in place of that suffix, and any other name is returned unchanged; a refusal carries the rewritten name |
| Naming.ContractFileNameFailsIffDoubleDot | packages/ts-contract-plugin/src/naming.ts:6-13 | the boundary check fails exactly when the source name itself contains `..`, so non-traversal names such as `a..b.proto` are refused too |
| Naming.InputTypeName | packages/ts-contract-plugin/src/naming.ts:17-25 | the interface name ends in `Input`, contains no `.`, and is as long as the package-relative name plus the suffix |
| Naming.InputTypeNameDropsPackage | packages/ts-contract-plugin/src/naming.ts:21-24 | with a non-empty package, exactly the package and its dot are dropped; with an empty package, the whole type name is kept |
| Naming.InputTypeNameInjective | packages/ts-contract-plugin/src/naming.ts:21-24 | distinct type names of one package get distinct interface names, as long as neither package-relative name contains `_` |
| Naming.InputTypeNameUnderscoreCollision | packages/ts-contract-plugin/src/naming.ts:24 | once `_` may occur, nested `p.A.B` and top-level `p.A_B` both become `A_BInput` |
| Naming.PbImportPathAsWritten | packages/ts-contract-plugin/src/naming.ts:27-38 | the import path always starts with `.`: the normalised target is kept when it starts with `.`, otherwise `./` is prepended |
| Naming.PbImportPath | packages/ts-contract-plugin/src/naming.ts:37 | corrected test: the result always starts with `./` or `../`, and is the target or `./` + target |
| Naming.PbImportPathIgnoresFromFile | packages/ts-contract-plugin/src/naming.ts:27-31 | the importing file does not affect the path |
| Naming.PbTargetEndsInPb | packages/ts-contract-plugin/src/naming.ts:32-36 | for a `.proto` target, the normalised module path ends in `_pb` and not in `.js`, whatever `pbOut` is |
| Naming.PbImportPathEndsInPb | packages/ts-contract-plugin/src/naming.ts:27-38 | both readings of the import path end in `_pb`; the corrected one has no `.js` |
| Naming.PbTargetInDirectory | packages/ts-contract-plugin/src/naming.ts:32-36 | for `stem.proto` and a one-segment relative `pbOut`, the module path is `pbOut/stem_pb` |
| Naming.DotTargetImportPaths | packages/ts-contract-plugin/src/naming.ts:37 | a target that starts with a dot but is not `./` or `../` is returned bare as written, and with `./` by the corrected test |
| Naming.PbImportPathAsWrittenHiddenDirectory | packages/ts-contract-plugin/src/naming.ts:37 | with `pbOut` = `.gen`, `a.proto` gets `.gen/a_pb` as written, and `./.gen/a_pb` when corrected |
| PosixPath.Normalize | packages/ts-contract-plugin/src/naming.ts:32-35 | `path.posix.normalize` never returns an empty path (an empty input becomes `.`); its content is stated by `NormalizeKeepsLastName` and `NormalizeTwoNames` |
| PosixPath.Join | packages/ts-contract-plugin/src/naming.ts:32-34 | two-argument `path.posix.join` never returns an empty path (two empty parts give `.`); its content is stated by `JoinKeepsLastName` |
| PosixPath.NormalizeKeepsLastName | packages/ts-contract-plugin/src/naming.ts:32-35 | normalising a path whose last segment ends in a slash-free name keeps that ending |
| PosixPath.JoinKeepsLastName | packages/ts-contract-plugin/src/naming.ts:32-34 | joining onto such a path keeps the ending too |
| PosixPath.NormalizeTwoNames | packages/ts-contract-plugin/src/naming.ts:32-35 | a relative path of two names is already normal, even when the first starts with a dot |
| TypeMapping.FieldTypePrintable | packages/ts-contract-plugin/src/typeMapping.ts:25-51 | scalar, enum and message fields map as their value kind; a list maps its element kind and wraps it in `[]`; a map wraps its value kind in `Record<string, …>`, failing exactly when that value fails; any other kind fails with the unsupported-kind error. The content of these arms is stated by `FieldTypePrintableFailsIff`, `ListRendersWithBrackets` and `MapKeyIgnored` |
| TypeMapping.ValuePrintable | packages/ts-contract-plugin/src/typeMapping.ts:53-82 | a scalar needs its scalar type, an enum its descriptor and a message its descriptor, each failing with its own error when absent; otherwise the enum and message mappers decide |
| TypeMapping.EnumReference | packages/ts-contract-plugin/src/typeMapping.ts:84-94 | with no `pbOut` the enum cannot be mapped; otherwise it is an import of the enum's name from `pbImportPath` as written |
| TypeMapping.EnumReferenceCorrected | packages/ts-contract-plugin/src/typeMapping.ts:84-94 | the enum mapper with the corrected path test fails exactly without `pbOut`, and otherwise imports the enum's name from a `./` or `../` path |
| TypeMapping.EnumImportPointsAtPbModule | packages/ts-contract-plugin/src/typeMapping.ts:84-94 | for an enum of a `.proto` file, both mappers import its name from a path ending in `_pb`, the as-written one starting with `.`, and the importing file makes no difference |
| TypeMapping.FieldTypePrintableFailsIff | packages/ts-contract-plugin/src/typeMapping.ts:25-82 | mapping fails exactly when: a value's descriptor is missing; an enum has no `pbOut`; a message of another file has a contract name with `..`; or the kind is unrecognised |
| TypeMapping.ListRendersWithBrackets | packages/ts-contract-plugin/src/typeMapping.ts:40-42 | a list field prints as its element kind's expression followed by `[]` |
| TypeMapping.MapKeyIgnored | packages/ts-contract-plugin/src/typeMapping.ts:43-46 | the declared map key type makes no difference, and a map prints as `Record<string, …>` |
| TypeMapping.WellKnownMessageReference | packages/ts-contract-plugin/src/typeMapping.ts:115-127 | only a `Timestamp` of package `google.protobuf` is special, and it becomes an import from `@bufbuild/protobuf/wkt` |
| TypeMapping.LastSegment | packages/ts-contract-plugin/src/typeMapping.ts:122 | the result is a dot-free suffix of the type name that follows a dot, unless it is the whole name |
| TypeMapping.TimestampIsImportedFromWkt | packages/ts-contract-plugin/src/typeMapping.ts:100-103 | `<scope>.Timestamp` in `google.protobuf` maps to the well-known `Timestamp` import from any file |
| TypeMapping.OtherWellKnownPackageTypesFallThrough | packages/ts-contract-plugin/src/typeMapping.ts:119-126 | other `google.protobuf` messages resolve like ordinary ones: local in their own file, imported elsewhere |
| TypeMapping.MessageInputReference | packages/ts-contract-plugin/src/typeMapping.ts:96-113 | well-known first, then the bare local interface name, then an import from the other file's contract module; it fails exactly when that file's name holds `..` |
| TypeMapping.ContractModule | packages/ts-contract-plugin/src/typeMapping.ts:107-111 | the module is relative (`./…`), and fails exactly when the contract file name does |
| TypeMapping.ContractModuleNamesContractFile | packages/ts-contract-plugin/src/typeMapping.ts:108-111 | for `stem.proto` the module is `./stem.contract.js`; any other name is kept, with a final `.ts` replaced by `.js`, behind `./` |
| TypeMapping.EnumAlwaysImported | packages/ts-contract-plugin/src/typeMapping.ts:84-94 | an enum field is always an import from `pbImportPath` as written, even for an enum of the current file |
| TypeMapping.ImportsAreResolvable | packages/ts-contract-plugin/src/typeMapping.ts:84-112 | every import a mapped field requests comes from the well-known-types module or a path starting with `.`; an import that does not start with `./` is an enum's as-written `pbImportPath` |
| Generator.CreatePackageMatchers | packages/ts-contract-plugin/src/generator.ts:42-52 | one matcher per pattern, in order, each the compiled source of its own pattern |
| PackageGlob.CompileSource | packages/ts-contract-plugin/src/generator.ts:43-50 | whatever anchors the user wrote, the source is the rewritten body between exactly one `^` and one `$` |
| PackageGlob.CompiledAnchorsAtEndsOnly | packages/ts-contract-plugin/src/generator.ts:44-49 | the compiled source has `^` only in front and `$` only at the end |
| PackageGlob.AnchorsNotDuplicated | packages/ts-contract-plugin/src/generator.ts:44-49 | `^p$` compiles to the same source as `p`, so user anchors are not doubled |
| PackageGlob.RewriteMatchesGlob | packages/ts-contract-plugin/src/generator.ts:46 | after `*` becomes `.*`, the regex means the glob: `*` is any run of characters, `.` is one character |
| PackageGlob.CompiledMatchesIffGlob | packages/ts-contract-plugin/src/generator.ts:42-51 | `test` on a compiled pattern is whole-string glob matching of the pattern body |
| PackageGlob.GoogleStarExample | packages/ts-contract-plugin/src/generator.ts:46 | `google.*` matches `google.protobuf` but not `google` |
| Generator.ShouldSkipFile | packages/ts-contract-plugin/src/generator.ts:54-59 | a file is skipped iff some matcher accepts its package |
| Generator.SkipIffSomePatternMatches | packages/ts-contract-plugin/src/generator.ts:42-59 | a file is skipped iff some pattern's glob matches its whole package, and no patterns skip nothing |
| Generator.DefaultsSkipGoogleProtobuf | packages/ts-contract-plugin/src/options.ts:5 | the default patterns skip a `google.protobuf` file |
| Generator.IsMapEntry | packages/ts-contract-plugin/src/generator.ts:78-80 | a message is a map entry exactly when its options set `mapEntry` to `true`; absent options, an unset flag and `false` do not count |
| Generator.SelectMessages | packages/ts-contract-plugin/src/generator.ts:70-74 | the selection is exactly the file's message types that are not map entries |
| Generator.SelectedNamesDistinct | packages/ts-contract-plugin/src/generator.ts:70-74 | unique type names in the file stay unique in the selection |
| Generator.SortMessages | packages/ts-contract-plugin/src/generator.ts:75 | the sort is a permutation whose names never descend |
| Generator.CollectMessages | packages/ts-contract-plugin/src/generator.ts:69-76 | the collected messages are exactly the non-map-entry messages, as a permutation of the selection, in non-descending name order |
| Generator.CollectMessagesStrict | packages/ts-contract-plugin/src/generator.ts:75 | with unique type names, the order is strictly ascending |
| Generator.CollectMessagesIgnoresDeclarationOrder | packages/ts-contract-plugin/src/generator.ts:69-76 | two files that declare the same types in any order collect the same sequence |
| Generator.SortFields | packages/ts-contract-plugin/src/generator.ts:90 | the field sort is a permutation |
| Generator.SortFieldsAscending | packages/ts-contract-plugin/src/generator.ts:90 | sorted fields are in ascending field-number order |
| Generator.FilterPrinted | packages/ts-contract-plugin/src/generator.ts:94-96 | kept fields are exactly those outside a oneof or marked `proto3Optional`, each printed field exactly as often as given and every other field never |
| Generator.FilterPrintedAscending | packages/ts-contract-plugin/src/generator.ts:91-96 | skipping oneof fields keeps field-number order |
| Generator.PrintedFieldsSelection | packages/ts-contract-plugin/src/generator.ts:90-96 | the printed fields are the message's printable fields in ascending number order, each exactly as often as the message lists it, and no other field |
| Generator.FieldLineOf | packages/ts-contract-plugin/src/generator.ts:97-103 | a field line exists exactly when its type maps, and carries the local name, the optional flag and the mapped type; otherwise it fails with the type mapping's error |
| Generator.FieldLineMarker | packages/ts-contract-plugin/src/generator.ts:101-103 | a field line prints `name?: type;` when optional and `name: type;` otherwise |
| Generator.OptionalMarkerRendering | packages/ts-contract-plugin/src/generator.ts:97-103 | list and map fields always get `?`; other fields get it iff they are not required |
| Generator.PrintMessageInput | packages/ts-contract-plugin/src/generator.ts:82-106 | a declaration exists iff every printed field's type maps; it is the header, one line per printed field in order, and `}`; otherwise it fails with the error of the first printed field, in field-number order, whose type does not map |
| Generator.DeclarationShape | packages/ts-contract-plugin/src/generator.ts:88-105 | a declaration declares one interface, its own, and holds no blank line |
| Generator.EnumFieldFailsAsWritten | packages/ts-contract-plugin/src/generator.ts:102 | as written, a message with a printed enum field cannot be declared |
| Generator.EnumFieldPrintsWithPbOut | packages/ts-contract-plugin/src/generator.ts:102-103 | with `pbOut` supplied, the line of a printed enum field imports the enum's name from its file's `pbImportPath` as written |
| Generator.JoinDeclarationsShape | packages/ts-contract-plugin/src/generator.ts:22-30 | n declarations joined declare their n names in order, with n-1 blank lines and a closing brace last |
| Generator.FileBody | packages/ts-contract-plugin/src/generator.ts:21-30 | a file body exists iff every message's declaration does; otherwise it fails with the error of the first message, in collected order, whose declaration fails |
| Generator.InterfaceNames | packages/ts-contract-plugin/src/generator.ts:88 | the k-th name is the interface name of the k-th message |
| Generator.FileBodyShape | packages/ts-contract-plugin/src/generator.ts:21-30 | a file body declares one interface per message in order, with n-1 blank lines and none after the last |
| Generator.GenerateFile | packages/ts-contract-plugin/src/generator.ts:17-30 | a naming failure aborts the file; once naming succeeds, the file fails exactly with its body's error; a generated file carries its contract file name |
| Generator.GenerateFileBody | packages/ts-contract-plugin/src/generator.ts:17-30 | a file is generated iff naming and printing both succeed, and its lines are the body of its collected messages |
| Generator.KeptFiles | packages/ts-contract-plugin/src/generator.ts:14-15 | the kept files are exactly the input files that are not skipped, each kept file as often as the input lists it and a skipped one never |
| Generator.KeptFilesInOrder | packages/ts-contract-plugin/src/generator.ts:14-15 | the kept files keep their input order: they are a subsequence of the input |
| Generator.GenerateRun | packages/ts-contract-plugin/src/generator.ts:11-32 | a missing validate extension aborts the run; otherwise the run succeeds exactly when every kept file generates, giving one output per kept file, in order; a failing run ends with the error of the first kept file that fails |
| Generator.GenerateTs | packages/ts-contract-plugin/src/generator.ts:11-18 | the run with `pbOut` supplied fails first on a missing validate extension, and otherwise succeeds exactly when every kept file generates with that `pbOut` |
| Generator.GenerateTsAsWritten | packages/ts-contract-plugin/src/generator.ts:11-18 | the run as written fails first on a missing validate extension, and otherwise succeeds exactly when every kept file generates without a `pbOut` |
| Generator.GeneratedOutputs | packages/ts-contract-plugin/src/generator.ts:14-18 | the outputs correspond one to one, in input order, to the non-skipped input files, each as often as it is listed; each output is named by the contract file name and holds its messages' body; skipped files yield none |
| Generator.AsWrittenRunFailsOnEnumField | packages/ts-contract-plugin/src/generator.ts:102 | as written, a run fails when a generated file declares a message with a printed enum field |
| Options.ParseOptions | packages/ts-contract-plugin/src/options.ts:20-49 | a blank `skip_pkg` fails at once, even after unknown keys; otherwise unknown entries are reported together, in input order; otherwise the result is the trimmed, deduplicated skip list, or the defaults |
| Options.ParsedSkipPackagesWellFormed | packages/ts-contract-plugin/src/options.ts:45-48 | on success the skip list is non-empty, each entry is non-empty and none repeats; with no `skip_pkg` it is `["google.*", "buf.*"]` |
| Options.UnknownEntryShape | packages/ts-contract-plugin/src/options.ts:37 | an unknown option is reported as its key alone when the value is empty, and as `key=value` otherwise |
| Options.DedupSameElements | packages/ts-contract-plugin/src/options.ts:33 | the set keeps exactly the values added |
| Options.DedupNoDuplicates | packages/ts-contract-plugin/src/options.ts:47 | the spread set lists each value once |
| Options.DedupKeepsFirstOccurrenceOrder | packages/ts-contract-plugin/src/options.ts:47 | repeated values appear once, in order of first occurrence |
| Strings.Trim | packages/ts-contract-plugin/src/options.ts:29 | the trimmed value is an infix with only whitespace cut away, neither end is whitespace, and it is empty iff the value is all whitespace |
| Strings.LexLessTotal | packages/ts-contract-plugin/src/generator.ts:75 | distinct names are always ordered one way or the other |
| Strings.LexLessTransitive | packages/ts-contract-plugin/src/generator.ts:75 | the name order is transitive |
| ValidateRules.ResolveValidateFieldExtension | packages/ts-contract-plugin/src/validateRules.ts:15-26 | resolution fails with the missing-extension error iff the registry lacks `buf.validate.field`, and otherwise returns that entry |
| ValidateRules.IsRequiredField | packages/ts-contract-plugin/src/validateRules.ts:28-37 | a field without the option is not required; with it, required iff `required` is exactly true |
| ValidateRules.RequiredDependsOnlyOnOwnRules | packages/ts-contract-plugin/src/validateRules.ts:28-37 | requiredness depends only on the field's own option value |

## Left out

- `main.ts` is not part of this model: it only wires the generator into the plugin host.
- The `GeneratedFile` output buffer: text buffering, import deduplication and aliasing, `export` rendering and `preamble`. Imports are values inside `Printable`, and output is a list of lines.
- Registry construction and option decoding (`createRegistry`, `hasOption`, `getOption`, the generated `validate_pb.js`). The registry is a map from extension name to descriptor, and each field carries its decoded rules as an `Option`.
- The scalar-to-TypeScript table (`scalarTypeScriptType`) lives in a library. `Printable.Prim` keeps the scalar tag, and rendering takes the table as a parameter.
- The full JavaScript regular-expression language. The match semantics (`PackageGlob.Test`) agree with JavaScript for ordinary characters, `.`, `*`, a leading `^` and a trailing `$`, which is the alphabet `PackageGlob.SimplePattern` states. Outside that alphabet, patterns compile to the same source text, but `Test` reads `(`, `)`, `|`, `?`, `+`, `[`, `]`, `{`, `}`, `\` and an inner `^` or `$` as literal characters. For example, `a|b` compiles to `^a|b$`, which JavaScript matches against `a` and the model does not.
- Generator.ShouldSkipFile, Generator.KeptFiles, Generator.GenerateRun, Generator.GeneratedOutputs: these take no alphabet precondition. For a skip pattern outside the modelled alphabet, their skip decision follows the literal reading above and can differ from the program's.
- Generator.SkipIffSomePatternMatches: requires every pattern to lie in the modelled alphabet, because only there is the regex meaning defined.
- Invalid regular expressions: `new RegExp` throwing on a malformed pattern is not modelled, since no pattern in the modelled alphabet is malformed.
- UTF-16 code units: string order is by `char`, which agrees with JavaScript `>` only for text without surrogate pairs.
- The whitespace set of `String.prototype.trim`: only ASCII whitespace, no-break space and the byte-order mark count.
- Generator.CollectMessagesIgnoresDeclarationOrder: requires unique type names in each file. With duplicates, the source comparator never returns 0 and the JavaScript sort order is not specified.
- Generator.SortMessages: an insertion sort stands in for `Array.prototype.sort`. With distinct names, the proved strict order fixes the result of any correct sort.
- The absolute-path behaviour of `path.join` is modelled, but no property is stated for an absolute `pbOut`.
- Writing files to disk, and the host's handling of thrown errors. A thrown `Error` is an `Err` result that aborts the run.
- Errors.Message: the message text of each error is written out, but no property is proved about it.

## Findings

| source | as written | input that shows it | evidently intended | confidence | as-written member | corrected member |
|---|---|---|---|---|---|---|
| packages/ts-contract-plugin/src/generator.ts:102 | the mapper context is `{ file, gen }`, so `enumReference` reads `context.options.pbOut` (typeMapping.ts:91) from a missing `options` and throws | any non-skipped file with a message that has a non-oneof enum field | the plugin's `pbOut` reaches the mapper, and enum fields import from their `_pb` module | high, not executed | Generator.AsWrittenRunFailsOnEnumField | Generator.EnumFieldPrintsWithPbOut |
| packages/ts-contract-plugin/src/naming.ts:37 | `startsWith(".")` keeps any normalised target that begins with a dot | `pbOut` = `.gen` with target `a.proto` gives `.gen/a_pb`, which is a bare module specifier | the path is kept only when it starts with `./` or `../`, so `./.gen/a_pb` | medium, not executed | Naming.PbImportPathAsWrittenHiddenDirectory | TypeMapping.EnumReferenceCorrected |

=== FILE: descriptors.dfy ===
/** The slice of the protobuf descriptor graph the generator reads.

    Fields refer to enums and messages through handles (`EnumRef`,
    `MessageRef`: a type name plus the declaring file) rather than by
    containing them, because the schema graph may be cyclic. File identity
    (`===` in the source) is equality of `FileRef`, whose `name` is unique
    within one compilation request. */
module Descriptors {
  import opened Wrappers

  /** A `.proto` file: its path-like name and its package (possibly ""). */
  datatype FileRef = FileRef(name: string, package: string)

  /** A reference to a message declared in some file. */
  datatype MessageRef = MessageRef(typeName: string, file: FileRef)

  /** A reference to an enum: short name, fully qualified name, declaring file. */
  datatype EnumRef = EnumRef(name: string, typeName: string, file: FileRef)

  /** The protobuf scalar types. */
  datatype ScalarType =
    | Double | Float | Int64 | UInt64 | Int32 | Fixed64 | Fixed32 | Bool
    | String | Bytes | UInt32 | SFixed32 | SFixed64 | SInt32 | SInt64

  /** What a singular value, a list element or a map value holds. */
  datatype ValueKind = ScalarKind | EnumKind | MessageKind

  /** `DescField.fieldKind`. `UnrecognizedField` stands for any kind a future
      descriptor library might add. */
  datatype FieldKind =
    | ScalarField
    | EnumField
    | MessageField
    | ListField(listKind: ValueKind)
    | MapField(mapKey: ScalarType, mapKind: ValueKind)
    | UnrecognizedField(kind: string)

  /** The decoded `buf.validate.field` option; only `required` matters here. */
  datatype FieldRules = FieldRules(required: Option<bool>)

  /** A message field. `scalar`, `enumDesc` and `message` are the descriptors
      for the field's value kind, absent when the kind does not use them.
      `rules` is the field's `buf.validate.field` option, if set. */
  datatype Field = Field(
    localName: string,
    number: int,
    fieldKind: FieldKind,
    scalar: Option<ScalarType>,
    enumDesc: Option<EnumRef>,
    message: Option<MessageRef>,
    inOneof: bool,
    proto3Optional: bool,
    rules: Option<FieldRules>)

  /** `MessageOptions`; only `map_entry` matters here. */
  datatype MessageOptions = MessageOptions(mapEntry: Option<bool>)

  datatype Message = Message(
    typeName: string,
    file: FileRef,
    options: Option<MessageOptions>,
    fields: seq<Field>)

  /** One entry of `schema.typesInFile(file)`: every type a file declares,
      nested ones included. */
  datatype TypeDesc =
    | MessageType(message: Message)
    | EnumType(enumDesc: EnumRef)
    | ExtensionType(extensionName: string)
    | ServiceType(serviceName: string)

  datatype File = File(ref: FileRef, types: seq<TypeDesc>)
}

=== FILE: errors.dfy ===
/** The errors the generator raises, each with the text of the source's
    `Error` message. */
module Errors {
  import Strings

  datatype Error =
    | BoundaryViolation(tsName: string)      // naming.ts: contract name holds ".."
    | MissingScalar                          // scalar kind without scalar type
    | MissingEnum                            // enum kind without enum descriptor
    | MissingMessage                         // message kind without message descriptor
    | UnsupportedFieldKind(kind: string)     // field kind outside the five known ones
    | PbOutUndefined                         // `context.options.pbOut` read from a context without options
    | EmptySkipPackage                       // `skip_pkg=` with a blank value
    | UnknownOptions(entries: seq<string>)   // every unrecognised key, batched
    | MissingExtension(name: string)         // registry lacks the validate extension

  /** The message text the source attaches to each error. */
  function Message(e: Error): string
  {
    match e
    case BoundaryViolation(n) => "refusing to generate contract outside package boundary: " + n
    case MissingScalar => "scalar kind requires scalar type"
    case MissingEnum => "enum kind requires enum descriptor"
    case MissingMessage => "message kind requires message descriptor"
    case UnsupportedFieldKind(k) => "unsupported field kind " + k
    case PbOutUndefined => "Cannot read properties of undefined (reading 'pbOut')"
    case EmptySkipPackage => "skip_pkg requires a non-empty value"
    case UnknownOptions(entries) => "unknown option(s): " + Strings.Join(entries, ", ")
    case MissingExtension(n) =>
      "missing required extension " + n + "; ensure buf.build/bufbuild/protovalidate is available"
  }
}

=== FILE: generator.dfy ===
/** The generation driver (generator.ts): package filtering, message
    selection and ordering, one interface declaration per message, and one
    output file per input file that is not skipped.

    Output is modelled as lines whose type expressions are `Printable`s, so
    the import requests stay visible; `RenderLine` gives their text. */
module Generator {
  import opened Wrappers
  import opened Sequences
  import opened Strings
  import opened Errors
  import opened Descriptors
  import opened Naming
  import opened TypeMapping
  import opened ValidateRules
  import opened PackageGlob
  import Options

  // ---------------------------------------------------------------------
  // Package filters

  /** `createPackageMatchers`: one regex source per pattern. */
  function CreatePackageMatchers(patterns: seq<string>): (r: seq<string>)
    ensures |r| == |patterns|
    ensures forall k :: 0 <= k < |r| ==> r[k] == CompileSource(patterns[k])
  {
    seq(|patterns|, k requires 0 <= k < |patterns| => CompileSource(patterns[k]))
  }

  /** `shouldSkipFile`: some matcher accepts the file's package. */
  function ShouldSkipFile(file: FileRef, matchers: seq<string>): (r: bool)
    ensures r <==> exists k :: 0 <= k < |matchers| && Test(matchers[k], file.package)
  {
    if |matchers| == 0 then false
    else Test(matchers[0], file.package) || ShouldSkipFile(file, matchers[1..])
  }

  /** A file is skipped exactly when one of the patterns, read as a glob,
      matches its whole package name; no patterns skip nothing. */
  lemma SkipIffSomePatternMatches(file: FileRef, patterns: seq<string>)
    requires forall k :: 0 <= k < |patterns| ==> SimplePattern(patterns[k])
    ensures ShouldSkipFile(file, CreatePackageMatchers(patterns)) <==>
            exists k :: 0 <= k < |patterns| && Glob(Body(patterns[k]), file.package)
    ensures |patterns| == 0 ==> !ShouldSkipFile(file, CreatePackageMatchers(patterns))
  {
    var matchers := CreatePackageMatchers(patterns);
    forall k | 0 <= k < |patterns|
      ensures Test(matchers[k], file.package) <==> Glob(Body(patterns[k]), file.package)
    {
      CompiledMatchesIffGlob(patterns[k], file.package);
    }
  }

  lemma UnanchoredBody(pattern: string)
    requires |pattern| > 0 && pattern[0] != '^' && pattern[|pattern| - 1] != '$'
    ensures Body(pattern) == pattern
  {
  }

  /** With the default patterns, every `google.*` package is skipped, in
      particular `google.protobuf`. */
  lemma DefaultsSkipGoogleProtobuf(file: FileRef)
    requires file.package == "google.protobuf"
    ensures ShouldSkipFile(file, CreatePackageMatchers(Options.DefaultSkipPackages))
  {
    DefaultPatternsSimple();
    GoogleStarMatches(Options.DefaultSkipPackages[0], file.package);
    SkipIffSomePatternMatches(file, Options.DefaultSkipPackages);
  }

  lemma DefaultPatternsSimple()
    ensures forall k :: 0 <= k < |Options.DefaultSkipPackages| ==> SimplePattern(Options.DefaultSkipPackages[k])
  {
    var d := Options.DefaultSkipPackages;
    assert SimplePattern(d[0]);
    assert SimplePattern(d[1]);
  }

  lemma GoogleStarMatches(g: string, package: string)
    requires g == "google.*" && package == "google.protobuf"
    ensures Glob(Body(g), package)
  {
    UnanchoredBody(g);
    GoogleStarExample(g, package, "google");
  }

  // ---------------------------------------------------------------------
  // Message selection

  /** `isMapEntry`: only an explicit `true` marks a map entry; absent
      options, an unset flag and `false` all leave the message selectable. */
  predicate IsMapEntry(message: Message): (b: bool)
    ensures b <==> message.options == Some(MessageOptions(Some(true)))
  {
    message.options.Some? && message.options.value.mapEntry == Some(true)
  }

  /** The fully qualified name of any declared type. */
  function TypeName(t: TypeDesc): string
  {
    match t
    case MessageType(m) => m.typeName
    case EnumType(e) => e.typeName
    case ExtensionType(n) => n
    case ServiceType(n) => n
  }

  /** Fully qualified names are unique within a file. */
  predicate UniqueTypeNames(file: File) {
    forall i, j :: 0 <= i < j < |file.types| ==> TypeName(file.types[i]) != TypeName(file.types[j])
  }

  predicate DistinctNames(messages: seq<Message>) {
    forall i, j :: 0 <= i < j < |messages| ==> messages[i].typeName != messages[j].typeName
  }

  /** The message types of a file that are not map entries, in
      declaration order. */
  function SelectMessages(types: seq<TypeDesc>): (r: seq<Message>)
    ensures forall m :: m in r <==> MessageType(m) in types && !IsMapEntry(m)
  {
    if |types| == 0 then []
    else
      var t := types[|types| - 1];
      SelectMessages(types[..|types| - 1]) + (if t.MessageType? && !IsMapEntry(t.message) then [t.message] else [])
  }

  lemma {:induction false} SelectedNamesDistinct(types: seq<TypeDesc>)
    requires forall i, j :: 0 <= i < j < |types| ==> TypeName(types[i]) != TypeName(types[j])
    ensures DistinctNames(SelectMessages(types))
  {
    if |types| > 0 {
      var init := types[..|types| - 1];
      SelectedNamesDistinct(init);
      var t := types[|types| - 1];
      forall m | m in SelectMessages(init)
        ensures m.typeName != TypeName(t)
      {
        var i :| 0 <= i < |init| && init[i] == MessageType(m);
        assert TypeName(types[i]) == m.typeName;
      }
    }
  }

  /** No neighbour pair is out of order under the comparator of
      `collectMessages`, which puts `a` after `b` when `a.typeName >
      b.typeName`. */
  predicate Ascending(messages: seq<Message>) {
    forall i :: 0 <= i < |messages| - 1 ==> !LexLess(messages[i + 1].typeName, messages[i].typeName)
  }

  predicate StrictlyAscending(messages: seq<Message>) {
    forall i :: 0 <= i < |messages| - 1 ==> LexLess(messages[i].typeName, messages[i + 1].typeName)
  }

  /** Insert one message after the ones whose names are smaller. */
  function InsertMessage(m: Message, sorted: seq<Message>): (r: seq<Message>)
    requires Ascending(sorted)
    ensures multiset(r) == multiset(sorted) + multiset{m}
    ensures Ascending(r)
    ensures r[0] == m || (|sorted| > 0 && r[0] == sorted[0])
  {
    if |sorted| == 0 then [m]
    else if LexLess(sorted[0].typeName, m.typeName) then
      var rest := InsertMessage(m, sorted[1..]);
      assert sorted == [sorted[0]] + sorted[1..];
      LexLessAsymmetric(sorted[0].typeName, m.typeName);
      [sorted[0]] + rest
    else
      [m] + sorted
  }

  /** Sort messages by type name with the comparator of `collectMessages`,
      by insertion. */
  function SortMessages(messages: seq<Message>): (r: seq<Message>)
    ensures multiset(r) == multiset(messages)
    ensures Ascending(r)
  {
    if |messages| == 0 then []
    else
      var init := messages[..|messages| - 1];
      assert messages == init + [messages[|messages| - 1]];
      InsertMessage(messages[|messages| - 1], SortMessages(init))
  }

  /** Inserting a fresh name into a strictly ascending run keeps it strict. */
  lemma {:induction false} InsertMessageStrict(m: Message, sorted: seq<Message>)
    requires Ascending(sorted) && StrictlyAscending(sorted)
    requires forall k :: 0 <= k < |sorted| ==> sorted[k].typeName != m.typeName
    ensures StrictlyAscending(InsertMessage(m, sorted))
  {
    if |sorted| > 0 {
      if LexLess(sorted[0].typeName, m.typeName) {
        InsertMessageStrict(m, sorted[1..]);
      } else {
        LexLessTotal(m.typeName, sorted[0].typeName);
      }
    }
  }

  /** With distinct names the order is strict. */
  lemma {:induction false} SortMessagesStrict(messages: seq<Message>)
    requires DistinctNames(messages)
    ensures StrictlyAscending(SortMessages(messages))
  {
    if |messages| > 0 {
      var init := messages[..|messages| - 1];
      SortMessagesStrict(init);
      LastNameFresh(messages, SortMessages(init));
      InsertMessageStrict(messages[|messages| - 1], SortMessages(init));
    }
  }

  /** The last message's name is not among the earlier ones, in any order. */
  lemma LastNameFresh(messages: seq<Message>, sorted: seq<Message>)
    requires DistinctNames(messages) && |messages| > 0
    requires multiset(sorted) == multiset(messages[..|messages| - 1])
    ensures forall k :: 0 <= k < |sorted| ==> sorted[k].typeName != messages[|messages| - 1].typeName
  {
    var init := messages[..|messages| - 1];
    forall k | 0 <= k < |sorted|
      ensures sorted[k].typeName != messages[|messages| - 1].typeName
    {
      assert sorted[k] in multiset(init);
      var i :| 0 <= i < |init| && init[i] == sorted[k];
      assert messages[i] == sorted[k];
    }
  }

  /** `collectMessages`: the file's messages without map entries, sorted by
      type name. */
  function CollectMessages(file: File): (r: seq<Message>)
    ensures forall m :: m in r <==> MessageType(m) in file.types && !IsMapEntry(m)
    ensures Ascending(r)
    ensures multiset(r) == multiset(SelectMessages(file.types))
  {
    var selected := SelectMessages(file.types);
    var r := SortMessages(selected);
    assert forall m :: m in r <==> m in multiset(selected);
    r
  }

  /** With unique type names no two collected messages share a name. */
  lemma CollectMessagesStrict(file: File)
    requires UniqueTypeNames(file)
    ensures StrictlyAscending(CollectMessages(file))
  {
    SelectedNamesDistinct(file.types);
    SortMessagesStrict(SelectMessages(file.types));
  }

  /** Adjacent order gives order between any two positions, so no two
      selected messages share a name. */
  lemma {:induction false} AscendingIsStrictlyOrdered(messages: seq<Message>, i: int, j: int)
    requires StrictlyAscending(messages)
    requires 0 <= i < j < |messages|
    ensures LexLess(messages[i].typeName, messages[j].typeName)
    decreases j - i
  {
    if j > i + 1 {
      AscendingIsStrictlyOrdered(messages, i, j - 1);
      LexLessTransitive(messages[i].typeName, messages[j - 1].typeName, messages[j].typeName);
    }
  }

  /** The selection does not depend on declaration order: files declaring
      the same types in any order select the same sequence. */
  lemma {:induction false} CollectMessagesIgnoresDeclarationOrder(f: File, g: File)
    requires UniqueTypeNames(f) && UniqueTypeNames(g)
    requires multiset(f.types) == multiset(g.types)
    ensures CollectMessages(f) == CollectMessages(g)
  {
    var a := CollectMessages(f);
    var b := CollectMessages(g);
    CollectMessagesStrict(f);
    CollectMessagesStrict(g);
    forall m ensures m in a <==> m in b {
      assert MessageType(m) in f.types <==> MessageType(m) in multiset(f.types);
      assert MessageType(m) in g.types <==> MessageType(m) in multiset(g.types);
    }
    AscendingSameElementsEqual(a, b);
  }

  /** Two strictly ascending sequences with the same elements are equal. */
  lemma {:induction false} AscendingSameElementsEqual(a: seq<Message>, b: seq<Message>)
    requires StrictlyAscending(a) && StrictlyAscending(b)
    requires forall m :: m in a <==> m in b
    ensures a == b
    decreases |a|
  {
    assert |a| > 0 ==> a[0] in a;
    assert |b| > 0 ==> b[0] in b;
    if |a| > 0 && |b| > 0 {
      var x := a[0];
      var y := b[0];
      if x != y {
        // each head is below every other element of its own sequence
        assert x in a && y in b;
        var j :| 0 <= j < |b| && b[j] == x;
        var i :| 0 <= i < |a| && a[i] == y;
        assert i > 0 && j > 0;
        AscendingIsStrictlyOrdered(a, 0, i);
        AscendingIsStrictlyOrdered(b, 0, j);
        LexLessAsymmetric(x.typeName, y.typeName);
        assert false;
      }
      forall m ensures m in a[1..] <==> m in b[1..] {
        if m in a[1..] {
          var i :| 0 <= i < |a[1..]| && a[1..][i] == m;
          AscendingIsStrictlyOrdered(a, 0, i + 1);
          LexLessIrreflexive(m.typeName);
          assert m in b;
          var j :| 0 <= j < |b| && b[j] == m;
          assert j != 0;
          assert b[1..][j - 1] == m;
        }
        if m in b[1..] {
          var j :| 0 <= j < |b[1..]| && b[1..][j] == m;
          AscendingIsStrictlyOrdered(b, 0, j + 1);
          LexLessIrreflexive(m.typeName);
          assert m in a;
          var i :| 0 <= i < |a| && a[i] == m;
          assert i != 0;
          assert a[1..][i - 1] == m;
        }
      }
      AscendingSameElementsEqual(a[1..], b[1..]);
      assert a == [x] + a[1..] && b == [y] + b[1..];
    }
  }

  // ---------------------------------------------------------------------
  // One message declaration

  /** A line of generated output. */
  datatype Line =
    | Open(interfaceName: string)                           // export interface X {
    | FieldLine(name: string, optional: bool, fieldType: Printable)  //   name?: T;
    | Close                                                 // }
    | Blank                                                 // separator between declarations

  /** The text of a line, given the scalar table. */
  function RenderLine(line: Line, scalarName: ScalarType -> string): string
  {
    match line
    case Open(n) => "export interface " + n + " {"
    case FieldLine(n, optional, t) => "  " + n + (if optional then "?" else "") + ": " + Render(t, scalarName) + ";"
    case Close => "}"
    case Blank => ""
  }

  predicate FieldsAscending(fields: seq<Field>) {
    forall i :: 0 <= i < |fields| - 1 ==> fields[i].number <= fields[i + 1].number
  }

  /** Insert one field after every field whose number is not greater. */
  function InsertField(f: Field, sorted: seq<Field>): (r: seq<Field>)
    ensures multiset(r) == multiset(sorted) + multiset{f}
  {
    if |sorted| == 0 then [f]
    else if sorted[0].number <= f.number then
      assert sorted == [sorted[0]] + sorted[1..];
      [sorted[0]] + InsertField(f, sorted[1..])
    else [f] + sorted
  }

  /** `[...message.fields].sort((a, b) => a.number - b.number)`, by
      insertion. */
  function SortFields(fields: seq<Field>): (r: seq<Field>)
    ensures multiset(r) == multiset(fields)
  {
    if |fields| == 0 then []
    else
      assert fields == fields[..|fields| - 1] + [fields[|fields| - 1]];
      InsertField(fields[|fields| - 1], SortFields(fields[..|fields| - 1]))
  }

  lemma {:induction false} InsertFieldAscending(f: Field, sorted: seq<Field>)
    requires FieldsAscending(sorted)
    ensures FieldsAscending(InsertField(f, sorted))
    ensures var r := InsertField(f, sorted); r[0] == f || (|sorted| > 0 && r[0] == sorted[0])
  {
    if |sorted| > 0 && sorted[0].number <= f.number {
      InsertFieldAscending(f, sorted[1..]);
    }
  }

  /** The sorted fields are in ascending field-number order. */
  lemma {:induction false} SortFieldsAscending(fields: seq<Field>)
    ensures FieldsAscending(SortFields(fields))
  {
    if |fields| > 0 {
      SortFieldsAscending(fields[..|fields| - 1]);
      InsertFieldAscending(fields[|fields| - 1], SortFields(fields[..|fields| - 1]));
    }
  }

  /** Oneof members are left out, except the synthetic oneof of a proto3
      `optional` field. */
  predicate IsPrinted(field: Field) {
    !field.inOneof || field.proto3Optional
  }

  /** Lists and maps are always optional; other fields are optional unless
      the validation rule marks them required. */
  predicate IsOptional(field: Field, extension: Extension) {
    field.fieldKind.ListField? || field.fieldKind.MapField? || !IsRequiredField(field, extension)
  }

  /** The fields a declaration prints, in their order: each printed field
      as often as it is given, every other field never. */
  function FilterPrinted(fields: seq<Field>): (r: seq<Field>)
    ensures forall f :: f in r <==> f in fields && IsPrinted(f)
    ensures forall f :: multiset(r)[f] == (if IsPrinted(f) then multiset(fields)[f] else 0)
    ensures multiset(r) <= multiset(fields)
  {
    FilterCount(fields, IsPrinted);
    Filter(fields, IsPrinted)
  }

  /** In ascending order, the first field has the smallest number and the
      last the largest. */
  lemma {:induction false} AscendingBounds(fields: seq<Field>)
    requires FieldsAscending(fields)
    ensures forall i :: 0 <= i < |fields| ==> fields[0].number <= fields[i].number <= fields[|fields| - 1].number
  {
    if |fields| > 1 {
      var init := fields[..|fields| - 1];
      assert FieldsAscending(init);
      AscendingBounds(init);
      assert init[|init| - 1] == fields[|fields| - 2];
    }
  }

  /** Filtering keeps the order, and nothing it keeps comes before the
      first field. */
  lemma FilterPrintedAscending(fields: seq<Field>)
    requires FieldsAscending(fields)
    ensures FieldsAscending(FilterPrinted(fields))
    ensures var r := FilterPrinted(fields); |r| > 0 ==> fields[0].number <= r[0].number
  {
    FilterPrintedKeepsOrder(fields);
    AscendingBounds(fields);
    var r := FilterPrinted(fields);
    if |r| > 0 {
      assert r[0] in fields;
    }
  }

  lemma {:induction false} FilterPrintedKeepsOrder(fields: seq<Field>)
    requires FieldsAscending(fields)
    ensures FieldsAscending(FilterPrinted(fields))
  {
    if |fields| > 0 {
      var init := fields[..|fields| - 1];
      var x := fields[|fields| - 1];
      assert FieldsAscending(init);
      FilterPrintedKeepsOrder(init);
      var head := FilterPrinted(init);
      assert FilterPrinted(fields) == head + (if IsPrinted(x) then [x] else []);
      if IsPrinted(x) && |head| > 0 {
        AscendingBounds(fields);
        assert head[|head| - 1] in fields;
        AppendAscending(head, x);
      }
    }
  }

  lemma AppendAscending(fields: seq<Field>, x: Field)
    requires FieldsAscending(fields)
    requires |fields| > 0 ==> fields[|fields| - 1].number <= x.number
    ensures FieldsAscending(fields + [x])
  {
    var r := fields + [x];
    forall i | 0 <= i < |r| - 1 ensures r[i].number <= r[i + 1].number {
      if i < |fields| - 1 {
        assert r[i] == fields[i] && r[i + 1] == fields[i + 1];
      }
    }
  }

  /** The fields a declaration lists, in the order it lists them. */
  function PrintedFields(message: Message): seq<Field>
  {
    FilterPrinted(SortFields(message.fields))
  }

  /** The line of one field, or the error its type mapping raises. */
  function FieldLineOf(field: Field, context: Context, extension: Extension): (r: Result<Line, Error>)
    ensures r.Ok? <==> FieldTypePrintable(field, context).Ok?
    ensures r.Ok? ==> r.value == FieldLine(field.localName, IsOptional(field, extension),
                                           FieldTypePrintable(field, context).value)
    ensures r.Err? ==> FieldTypePrintable(field, context) == Err(r.error)
  {
    var fieldType :- FieldTypePrintable(field, context);
    Ok(FieldLine(field.localName, IsOptional(field, extension), fieldType))
  }

  /** `printMessageInput`: the interface header, one line per printed field
      in field-number order, and the closing brace; the first field whose
      type cannot be mapped aborts the declaration with that error. */
  function PrintMessageInput(message: Message, context: Context, extension: Extension): (r: Result<seq<Line>, Error>)
    ensures var fields := PrintedFields(message);
            r.Ok? <==> forall k :: 0 <= k < |fields| ==> FieldTypePrintable(fields[k], context).Ok?
    ensures r.Err? ==>
              var fields := PrintedFields(message);
              exists k :: && 0 <= k < |fields|
                          && FieldTypePrintable(fields[k], context) == Err(r.error)
                          && forall j :: 0 <= j < k ==> FieldTypePrintable(fields[j], context).Ok?
    ensures r.Ok? ==>
              var fields := PrintedFields(message);
              && |r.value| == |fields| + 2
              && r.value[0] == Open(InputTypeName(message.typeName, message.file.package))
              && r.value[|r.value| - 1] == Close
              && forall k :: 0 <= k < |fields| ==>
                   r.value[k + 1] == FieldLine(fields[k].localName, IsOptional(fields[k], extension),
                                               FieldTypePrintable(fields[k], context).value)
  {
    var fields := PrintedFields(message);
    FieldLinesOf(fields, context, extension);
    var lines :- MapResult(fields, FieldStep(context, extension));
    var header := Open(InputTypeName(message.typeName, message.file.package));
    Framed(header, lines);
    Ok([header] + lines + [Close])
  }

  /** The lines between a header and a closing brace keep their positions,
      shifted by one. */
  lemma Framed(header: Line, lines: seq<Line>)
    ensures var framed := [header] + lines + [Close];
            && |framed| == |lines| + 2
            && framed[0] == header
            && framed[|framed| - 1] == Close
            && forall k :: 0 <= k < |lines| ==> framed[k + 1] == lines[k]
  {
  }

  /** Printing one field's line, as the loop body of `printMessageInput`
      does. */
  function FieldStep(context: Context, extension: Extension): Field -> Result<Line, Error> {
    (f: Field) => FieldLineOf(f, context, extension)
  }

  /** Mapping the printed fields to lines succeeds exactly when every field's
      type is printable, and then yields one line per field, in order;
      otherwise it stops with the error of the first field that fails. */
  lemma FieldLinesOf(fields: seq<Field>, context: Context, extension: Extension)
    ensures var m := MapResult(fields, FieldStep(context, extension));
            && (m.Ok? <==> forall k :: 0 <= k < |fields| ==> FieldTypePrintable(fields[k], context).Ok?)
            && (m.Ok? ==>
                  && |m.value| == |fields|
                  && forall k :: 0 <= k < |fields| ==>
                       m.value[k] == FieldLine(fields[k].localName, IsOptional(fields[k], extension),
                                               FieldTypePrintable(fields[k], context).value))
            && (m.Err? ==>
                  exists k :: && 0 <= k < |fields|
                              && FieldTypePrintable(fields[k], context) == Err(m.error)
                              && forall j :: 0 <= j < k ==> FieldTypePrintable(fields[j], context).Ok?)
  {
    var step := FieldStep(context, extension);
    var m := MapResult(fields, step);
    forall k | 0 <= k < |fields|
      ensures step(fields[k]) == FieldLineOf(fields[k], context, extension)
    {
    }
    if m.Err? {
      var k :| FailsFirstAt(fields, step, k, m.error);
      assert FieldTypePrintable(fields[k], context) == Err(m.error);
    }
  }

  /** The printed fields are exactly the message's fields outside a
      non-synthetic oneof, each once, in ascending field-number order. */
  lemma PrintedFieldsSelection(message: Message)
    ensures FieldsAscending(PrintedFields(message))
    ensures forall f :: f in PrintedFields(message) <==> f in message.fields && IsPrinted(f)
    ensures multiset(PrintedFields(message)) <= multiset(message.fields)
    ensures forall f :: multiset(PrintedFields(message))[f] == (if IsPrinted(f) then multiset(message.fields)[f] else 0)
  {
    var sorted := SortFields(message.fields);
    SortFieldsAscending(message.fields);
    FilterPrintedAscending(sorted);
    forall f ensures f in sorted <==> f in message.fields {
      assert f in sorted <==> f in multiset(sorted);
      assert f in message.fields <==> f in multiset(message.fields);
    }
  }

  /** A field line's text starts with two spaces and the name, followed by
      `?` exactly when the line is optional. */
  lemma FieldLineMarker(name: string, optional: bool, fieldType: Printable, scalarName: ScalarType -> string)
    ensures var text := RenderLine(FieldLine(name, optional, fieldType), scalarName);
            var prefix := "  " + name;
            IsPrefix(prefix, text) && (text[|prefix|] == '?' <==> optional)
  {
    var prefix := "  " + name;
    var marker := if optional then "?" else "";
    var text := RenderLine(FieldLine(name, optional, fieldType), scalarName);
    assert text == prefix + (marker + ": " + Render(fieldType, scalarName) + ";");
    assert text[|prefix|] == (marker + ": ")[0];
  }

  /** The rendered line of a printed field carries `?` exactly when the field
      is a list or map or is not required. */
  lemma OptionalMarkerRendering(message: Message, context: Context, extension: Extension,
                                scalarName: ScalarType -> string, k: int)
    requires PrintMessageInput(message, context, extension).Ok?
    requires 0 <= k < |PrintedFields(message)|
    ensures var f := PrintedFields(message)[k];
            var text := RenderLine(PrintMessageInput(message, context, extension).value[k + 1], scalarName);
            var prefix := "  " + f.localName;
            && IsPrefix(prefix, text)
            && (text[|prefix|] == '?' <==> (f.fieldKind.ListField? || f.fieldKind.MapField? ||
                                             !IsRequiredField(f, extension)))
  {
    var f := PrintedFields(message)[k];
    var line := PrintMessageInput(message, context, extension).value[k + 1];
    FieldLineMarker(f.localName, IsOptional(f, extension), line.fieldType, scalarName);
  }

  /** As written, the mapper's context carries no `pbOut` (the generator
      passes `{ file, gen }` and the plugin options have no such entry), so
      any message with a printed enum field fails to print. */
  lemma EnumFieldFailsAsWritten(message: Message, file: FileRef, extension: Extension, k: int)
    requires 0 <= k < |PrintedFields(message)|
    requires PrintedFields(message)[k].fieldKind == EnumField
    ensures PrintMessageInput(message, AsWrittenContext(file), extension).Err?
  {
    var f := PrintedFields(message)[k];
    FieldTypePrintableFailsIff(f, AsWrittenContext(file));
  }

  /** With `pbOut` supplied, a printed enum field whose descriptor is present
      prints as an import from the enum file's `_pb` module. */
  lemma EnumFieldPrintsWithPbOut(message: Message, file: FileRef, pbOut: string, extension: Extension, k: int)
    requires PrintMessageInput(message, FileContext(file, pbOut), extension).Ok?
    requires 0 <= k < |PrintedFields(message)|
    requires PrintedFields(message)[k].fieldKind == EnumField
    ensures var f := PrintedFields(message)[k];
            PrintMessageInput(message, FileContext(file, pbOut), extension).value[k + 1].fieldType ==
              Imported(f.enumDesc.value.name, PbImportPathAsWritten(file, f.enumDesc.value.file, pbOut))
  {
    var context := FileContext(file, pbOut);
    var f := PrintedFields(message)[k];
    assert FieldTypePrintable(f, context).Ok?;
    EnumAlwaysImported(f, context);
  }

  /** The context the source builds: the file, and no options to read
      `pbOut` from. */
  function AsWrittenContext(file: FileRef): (c: Context)
    ensures c.file == file && c.pbOut.None?
  {
    Context(file, None)
  }

  /** The context with `pbOut` supplied explicitly. */
  function FileContext(file: FileRef, pbOut: string): (c: Context)
    ensures c.file == file && c.pbOut == Some(pbOut)
  {
    Context(file, Some(pbOut))
  }

  // ---------------------------------------------------------------------
  // One output file

  /** The interface names declared by a run of lines, in order. */
  function Declared(lines: seq<Line>): seq<string>
  {
    if |lines| == 0 then []
    else (if lines[0].Open? then [lines[0].interfaceName] else []) + Declared(lines[1..])
  }

  function CountBlank(lines: seq<Line>): nat
  {
    if |lines| == 0 then 0 else (if lines[0] == Blank then 1 else 0) + CountBlank(lines[1..])
  }

  lemma {:induction false} DeclaredConcat(a: seq<Line>, b: seq<Line>)
    ensures Declared(a + b) == Declared(a) + Declared(b)
    ensures CountBlank(a + b) == CountBlank(a) + CountBlank(b)
  {
    if |a| > 0 {
      assert (a + b)[1..] == a[1..] + b;
      DeclaredConcat(a[1..], b);
    } else {
      assert a + b == b;
    }
  }

  /** A declaration holds one `Open`, no blank line, and ends in `Close`. */
  lemma DeclarationShape(message: Message, context: Context, extension: Extension)
    requires PrintMessageInput(message, context, extension).Ok?
    ensures var lines := PrintMessageInput(message, context, extension).value;
            Declared(lines) == [InputTypeName(message.typeName, message.file.package)] &&
            CountBlank(lines) == 0
  {
    var lines := PrintMessageInput(message, context, extension).value;
    var fields := PrintedFields(message);
    assert |lines| == |fields| + 2;
    assert lines[0] == Open(InputTypeName(message.typeName, message.file.package));
    assert lines[|lines| - 1] == Close;
    forall k | 1 <= k < |lines| - 1 ensures lines[k].FieldLine? {
      assert lines[(k - 1) + 1].FieldLine?;
    }
    HeaderFieldsCloseShape(lines);
  }

  /** Lines made of a header, field lines and a closing brace declare the
      header's name and hold no blank line. */
  lemma HeaderFieldsCloseShape(lines: seq<Line>)
    requires |lines| >= 2 && lines[0].Open? && lines[|lines| - 1] == Close
    requires forall k :: 1 <= k < |lines| - 1 ==> lines[k].FieldLine?
    ensures Declared(lines) == [lines[0].interfaceName] && CountBlank(lines) == 0
  {
    var inner := lines[1..|lines| - 1];
    assert lines == [lines[0]] + inner + [Close];
    forall k | 0 <= k < |inner| ensures inner[k].FieldLine? {
      assert inner[k] == lines[k + 1];
    }
    FieldLinesShape(inner);
    DeclaredConcat([lines[0]] + inner, [Close]);
    DeclaredConcat([lines[0]], inner);
  }

  lemma {:induction false} FieldLinesShape(lines: seq<Line>)
    requires forall k :: 0 <= k < |lines| ==> lines[k].FieldLine?
    ensures Declared(lines) == [] && CountBlank(lines) == 0
  {
    if |lines| > 0 {
      FieldLinesShape(lines[1..]);
    }
  }

  /** Declarations one after the other, a blank line between neighbours. */
  function JoinDeclarations(declarations: seq<seq<Line>>): seq<Line>
  {
    if |declarations| == 0 then []
    else declarations[0] + (if |declarations| > 1 then [Blank] else []) + JoinDeclarations(declarations[1..])
  }

  /** A declaration: one interface name, no blank line, closing brace last. */
  predicate IsDeclarationOf(lines: seq<Line>, name: string) {
    Declared(lines) == [name] && CountBlank(lines) == 0 && |lines| > 0 && lines[|lines| - 1] == Close
  }

  lemma JoinDeclarationsShape(declarations: seq<seq<Line>>, names: seq<string>)
    requires |declarations| == |names|
    requires forall k :: 0 <= k < |declarations| ==> IsDeclarationOf(declarations[k], names[k])
    ensures Declared(JoinDeclarations(declarations)) == names
    ensures CountBlank(JoinDeclarations(declarations)) == (if |names| == 0 then 0 else |names| - 1)
    ensures |names| > 0 ==> var lines := JoinDeclarations(declarations); |lines| > 0 && lines[|lines| - 1] == Close
  {
    JoinDeclaredNames(declarations, names);
    JoinEndsInClose(declarations, names);
  }

  lemma {:induction false} JoinDeclaredNames(declarations: seq<seq<Line>>, names: seq<string>)
    requires |declarations| == |names|
    requires forall k :: 0 <= k < |declarations| ==> IsDeclarationOf(declarations[k], names[k])
    ensures Declared(JoinDeclarations(declarations)) == names
    ensures CountBlank(JoinDeclarations(declarations)) == (if |names| == 0 then 0 else |names| - 1)
  {
    if |declarations| > 0 {
      var rest := JoinDeclarations(declarations[1..]);
      assert forall k :: 0 <= k < |declarations| - 1 ==> declarations[1..][k] == declarations[k + 1];
      JoinDeclaredNames(declarations[1..], names[1..]);
      var first := declarations[0];
      assert IsDeclarationOf(first, names[0]);
      var separator: seq<Line> := if |declarations| > 1 then [Blank] else [];
      assert JoinDeclarations(declarations) == first + (separator + rest);
      SeparatorShape(separator);
      DeclaredConcat(separator, rest);
      DeclaredConcat(first, separator + rest);
      assert names == [names[0]] + names[1..];
    }
  }

  /** A separator declares nothing and counts its own blank lines. */
  lemma SeparatorShape(separator: seq<Line>)
    requires separator == [] || separator == [Blank]
    ensures Declared(separator) == [] && CountBlank(separator) == |separator|
  {
    if separator == [Blank] {
      assert separator[1..] == [];
    }
  }

  lemma {:induction false} JoinEndsInClose(declarations: seq<seq<Line>>, names: seq<string>)
    requires |declarations| == |names|
    requires forall k :: 0 <= k < |declarations| ==> IsDeclarationOf(declarations[k], names[k])
    ensures |names| > 0 ==> var lines := JoinDeclarations(declarations); |lines| > 0 && lines[|lines| - 1] == Close
  {
    if |declarations| > 1 {
      assert forall k :: 0 <= k < |declarations| - 1 ==> declarations[1..][k] == declarations[k + 1];
      JoinEndsInClose(declarations[1..], names[1..]);
      var rest := JoinDeclarations(declarations[1..]);
      assert JoinDeclarations(declarations) == (declarations[0] + [Blank]) + rest;
    } else if |declarations| == 1 {
      assert IsDeclarationOf(declarations[0], names[0]);
      assert JoinDeclarations(declarations[1..]) == [];
      assert JoinDeclarations(declarations) == declarations[0] + [] + [];
    }
  }

  /** The body of one output file: the declarations of the messages in
      order, separated by one blank line. */
  function FileBody(messages: seq<Message>, context: Context, extension: Extension): (r: Result<seq<Line>, Error>)
    ensures r.Ok? <==> forall k :: 0 <= k < |messages| ==> PrintMessageInput(messages[k], context, extension).Ok?
    ensures r.Err? ==>
              exists k :: && 0 <= k < |messages|
                          && PrintMessageInput(messages[k], context, extension) == Err(r.error)
                          && forall j :: 0 <= j < k ==> PrintMessageInput(messages[j], context, extension).Ok?
  {
    DeclarationsOutcome(messages, context, extension);
    var declarations :- MapResult(messages, MessageStep(context, extension));
    Ok(JoinDeclarations(declarations))
  }

  /** Declaring one message, as the loop body of `generateTs` does. */
  function MessageStep(context: Context, extension: Extension): Message -> Result<seq<Line>, Error> {
    (m: Message) => PrintMessageInput(m, context, extension)
  }

  /** Declaring the messages one after the other succeeds exactly when every
      declaration does, and otherwise stops with the first one's error. */
  lemma DeclarationsOutcome(messages: seq<Message>, context: Context, extension: Extension)
    ensures var m := MapResult(messages, MessageStep(context, extension));
            && (m.Ok? <==> forall k :: 0 <= k < |messages| ==> PrintMessageInput(messages[k], context, extension).Ok?)
            && (m.Ok? ==>
                  && |m.value| == |messages|
                  && forall k :: 0 <= k < |messages| ==>
                       PrintMessageInput(messages[k], context, extension) == Ok(m.value[k]))
            && (m.Err? ==>
                  exists k :: && 0 <= k < |messages|
                              && PrintMessageInput(messages[k], context, extension) == Err(m.error)
                              && forall j :: 0 <= j < k ==> PrintMessageInput(messages[j], context, extension).Ok?)
  {
    var step := MessageStep(context, extension);
    var m := MapResult(messages, step);
    forall k | 0 <= k < |messages|
      ensures step(messages[k]) == PrintMessageInput(messages[k], context, extension)
    {
    }
    if m.Err? {
      var k :| FailsFirstAt(messages, step, k, m.error);
      assert PrintMessageInput(messages[k], context, extension) == Err(m.error);
    }
  }

  /** The interface names of a run of messages, in order. */
  function InterfaceNames(messages: seq<Message>): (r: seq<string>)
    ensures |r| == |messages|
    ensures forall k :: 0 <= k < |messages| ==> r[k] == InputTypeName(messages[k].typeName, messages[k].file.package)
  {
    if |messages| == 0 then [] else [InputTypeName(messages[0].typeName, messages[0].file.package)] + InterfaceNames(messages[1..])
  }

  /** A file body declares one interface per message, in message order,
      with a blank line between consecutive declarations and none after the
      last, and ends in a closing brace. */
  lemma FileBodyShape(messages: seq<Message>, context: Context, extension: Extension)
    requires FileBody(messages, context, extension).Ok?
    ensures var lines := FileBody(messages, context, extension).value;
            && Declared(lines) == InterfaceNames(messages)
            && CountBlank(lines) == (if |messages| == 0 then 0 else |messages| - 1)
            && (|messages| > 0 ==> |lines| > 0 && lines[|lines| - 1] == Close)
  {
    DeclarationsOutcome(messages, context, extension);
    var declarations := MapResult(messages, MessageStep(context, extension)).value;
    var names := InterfaceNames(messages);
    forall k | 0 <= k < |declarations| ensures IsDeclarationOf(declarations[k], names[k]) {
      DeclarationShape(messages[k], context, extension);
    }
    JoinDeclarationsShape(declarations, names);
  }

  datatype OutputFile = OutputFile(name: string, lines: seq<Line>)

  /** The output of one file that is not skipped: the contract file name is
      checked first, then the messages are printed. */
  function GenerateFile(file: File, context: Context, extension: Extension): (r: Result<OutputFile, Error>)
    ensures GenerateContractFileName(file.ref).Err? ==> r == Err(GenerateContractFileName(file.ref).error)
    ensures r.Ok? ==> GenerateContractFileName(file.ref) == Ok(r.value.name)
    ensures GenerateContractFileName(file.ref).Ok? && r.Err? ==>
              FileBody(CollectMessages(file), context, extension) == Err(r.error)
  {
    var outputName :- GenerateContractFileName(file.ref);
    var lines :- FileBody(CollectMessages(file), context, extension);
    Ok(OutputFile(outputName, lines))
  }

  /** The lines of a generated file are the body of its collected messages,
      and generation fails exactly when naming or printing does. */
  lemma GenerateFileBody(file: File, context: Context, extension: Extension)
    ensures var r := GenerateFile(file, context, extension);
            && (r.Ok? <==> GenerateContractFileName(file.ref).Ok? &&
                           FileBody(CollectMessages(file), context, extension).Ok?)
            && (r.Ok? ==> FileBody(CollectMessages(file), context, extension) == Ok(r.value.lines))
  {
  }

  /** The files that are not skipped, in input order: each kept file as
      often as the input lists it, and a skipped one never. */
  function KeptFiles(files: seq<File>, matchers: seq<string>): (r: seq<File>)
    ensures forall f :: f in r <==> f in files && !ShouldSkipFile(f.ref, matchers)
    ensures forall f :: multiset(r)[f] == (if ShouldSkipFile(f.ref, matchers) then 0 else multiset(files)[f])
  {
    FilterCount(files, (f: File) => !ShouldSkipFile(f.ref, matchers));
    Filter(files, (f: File) => !ShouldSkipFile(f.ref, matchers))
  }

  /** The kept files keep their input order. */
  lemma KeptFilesInOrder(files: seq<File>, matchers: seq<string>)
    ensures IsSubsequence(KeptFiles(files, matchers), files)
  {
    FilterIsSubsequence(files, (f: File) => !ShouldSkipFile(f.ref, matchers));
  }

  /** The extension `generateTs` resolves before anything else. */
  function RunExtension(registry: map<string, Extension>): Extension
    requires ValidateFieldExtensionName in registry
  {
    ResolveValidateFieldExtension(registry).value
  }

  /** Generating one kept file, as the loop body of `generateTs` does. */
  function FileStep(pbOut: Option<string>, extension: Extension): File -> Result<OutputFile, Error> {
    (f: File) => GenerateFile(f, Context(f.ref, pbOut), extension)
  }

  /** Generating the kept files one after the other succeeds exactly when
      every file does, and otherwise stops with the first file's error. */
  lemma FileStepsOutcome(kept: seq<File>, pbOut: Option<string>, extension: Extension)
    ensures var m := MapResult(kept, FileStep(pbOut, extension));
            && (m.Ok? <==> forall k :: 0 <= k < |kept| ==> GenerateFile(kept[k], Context(kept[k].ref, pbOut), extension).Ok?)
            && (m.Ok? ==>
                  && |m.value| == |kept|
                  && forall k :: 0 <= k < |kept| ==>
                       GenerateFile(kept[k], Context(kept[k].ref, pbOut), extension) == Ok(m.value[k]))
            && (m.Err? ==>
                  exists k :: && 0 <= k < |kept|
                              && GenerateFile(kept[k], Context(kept[k].ref, pbOut), extension) == Err(m.error)
                              && forall j :: 0 <= j < k ==>
                                   GenerateFile(kept[j], Context(kept[j].ref, pbOut), extension).Ok?)
  {
    var step := FileStep(pbOut, extension);
    var m := MapResult(kept, step);
    forall k | 0 <= k < |kept|
      ensures step(kept[k]) == GenerateFile(kept[k], Context(kept[k].ref, pbOut), extension)
    {
    }
    if m.Err? {
      var k :| FailsFirstAt(kept, step, k, m.error);
      assert GenerateFile(kept[k], Context(kept[k].ref, pbOut), extension) == Err(m.error);
    }
  }

  /** `generateTs`: resolve the validate extension, compile the skip
      patterns, then generate every file that is not skipped, in order; the
      first error aborts the run. The mapper sees `pbOut` as given. */
  function GenerateRun(files: seq<File>, registry: map<string, Extension>, options: Options.PluginOptions,
                       pbOut: Option<string>): (r: Result<seq<OutputFile>, Error>)
    ensures ValidateFieldExtensionName !in registry ==> r == Err(MissingExtension(ValidateFieldExtensionName))
    ensures r.Ok? <==>
              && ValidateFieldExtensionName in registry
              && var kept := KeptFiles(files, CreatePackageMatchers(options.skipPackages));
                 forall k :: 0 <= k < |kept| ==>
                   GenerateFile(kept[k], Context(kept[k].ref, pbOut), RunExtension(registry)).Ok?
    ensures r.Ok? ==>
              var kept := KeptFiles(files, CreatePackageMatchers(options.skipPackages));
              && ValidateFieldExtensionName in registry
              && |r.value| == |kept|
              && forall k :: 0 <= k < |kept| ==>
                   GenerateFile(kept[k], Context(kept[k].ref, pbOut), RunExtension(registry)) == Ok(r.value[k])
    ensures r.Err? && ValidateFieldExtensionName in registry ==>
              var kept := KeptFiles(files, CreatePackageMatchers(options.skipPackages));
              exists k :: && 0 <= k < |kept|
                          && GenerateFile(kept[k], Context(kept[k].ref, pbOut), RunExtension(registry)) == Err(r.error)
                          && forall j :: 0 <= j < k ==>
                               GenerateFile(kept[j], Context(kept[j].ref, pbOut), RunExtension(registry)).Ok?
  {
    var extension :- ResolveValidateFieldExtension(registry);
    var kept := KeptFiles(files, CreatePackageMatchers(options.skipPackages));
    FileStepsOutcome(kept, pbOut, extension);
    MapResult(kept, FileStep(pbOut, extension))
  }

  /** `generateTs` with the `_pb` base path supplied to the mapper: it fails
      on a missing extension, and otherwise succeeds exactly when every kept
      file does. */
  function GenerateTs(files: seq<File>, registry: map<string, Extension>, options: Options.PluginOptions,
                      pbOut: string): (r: Result<seq<OutputFile>, Error>)
    ensures ValidateFieldExtensionName !in registry ==> r == Err(MissingExtension(ValidateFieldExtensionName))
    ensures r.Ok? <==>
              && ValidateFieldExtensionName in registry
              && var kept := KeptFiles(files, CreatePackageMatchers(options.skipPackages));
                 forall k :: 0 <= k < |kept| ==>
                   GenerateFile(kept[k], FileContext(kept[k].ref, pbOut), RunExtension(registry)).Ok?
  {
    GenerateRun(files, registry, options, Some(pbOut))
  }

  /** `generateTs` as written: no `pbOut` reaches the mapper. It fails on a
      missing extension, and otherwise succeeds exactly when every kept file
      does without one. */
  function GenerateTsAsWritten(files: seq<File>, registry: map<string, Extension>,
                               options: Options.PluginOptions): (r: Result<seq<OutputFile>, Error>)
    ensures ValidateFieldExtensionName !in registry ==> r == Err(MissingExtension(ValidateFieldExtensionName))
    ensures r.Ok? <==>
              && ValidateFieldExtensionName in registry
              && var kept := KeptFiles(files, CreatePackageMatchers(options.skipPackages));
                 forall k :: 0 <= k < |kept| ==>
                   GenerateFile(kept[k], AsWrittenContext(kept[k].ref), RunExtension(registry)).Ok?
  {
    GenerateRun(files, registry, options, None)
  }

  /** A successful run writes one file per input file that is not skipped,
      in input order, under its contract file name, holding the body of its
      collected messages; skipped files produce nothing. */
  lemma GeneratedOutputs(files: seq<File>, registry: map<string, Extension>, options: Options.PluginOptions,
                         pbOut: string)
    requires GenerateTs(files, registry, options, pbOut).Ok?
    ensures var out := GenerateTs(files, registry, options, pbOut).value;
            var matchers := CreatePackageMatchers(options.skipPackages);
            var kept := KeptFiles(files, matchers);
            && |out| == |kept|
            && (forall f :: f in kept <==> f in files && !ShouldSkipFile(f.ref, matchers))
            && (forall f :: multiset(kept)[f] == (if ShouldSkipFile(f.ref, matchers) then 0 else multiset(files)[f]))
            && IsSubsequence(kept, files)
            && forall k :: 0 <= k < |kept| ==>
                 && GenerateContractFileName(kept[k].ref) == Ok(out[k].name)
                 && FileBody(CollectMessages(kept[k]), FileContext(kept[k].ref, pbOut), RunExtension(registry))
                    == Ok(out[k].lines)
  {
    var matchers := CreatePackageMatchers(options.skipPackages);
    var kept := KeptFiles(files, matchers);
    var out := GenerateTs(files, registry, options, pbOut).value;
    KeptFilesInOrder(files, matchers);
    assert out == GenerateRun(files, registry, options, Some(pbOut)).value;
    forall k | 0 <= k < |kept|
      ensures && GenerateContractFileName(kept[k].ref) == Ok(out[k].name)
              && FileBody(CollectMessages(kept[k]), FileContext(kept[k].ref, pbOut), RunExtension(registry))
                 == Ok(out[k].lines)
    {
      var file := kept[k];
      var context := FileContext(file.ref, pbOut);
      assert context == Context(file.ref, Some(pbOut));
      assert GenerateFile(file, context, RunExtension(registry)) == Ok(out[k]);
      GenerateFileBody(file, context, RunExtension(registry));
    }
  }

  /** As written, a run fails as soon as a generated file declares a
      message with a printed enum field. */
  lemma AsWrittenRunFailsOnEnumField(files: seq<File>, registry: map<string, Extension>,
                                     options: Options.PluginOptions, file: File, message: Message, j: int)
    requires file in files && !ShouldSkipFile(file.ref, CreatePackageMatchers(options.skipPackages))
    requires message in CollectMessages(file)
    requires 0 <= j < |PrintedFields(message)| && PrintedFields(message)[j].fieldKind == EnumField
    ensures GenerateTsAsWritten(files, registry, options).Err?
  {
    if ValidateFieldExtensionName in registry {
      var extension := RunExtension(registry);
      var kept := KeptFiles(files, CreatePackageMatchers(options.skipPackages));
      var k :| 0 <= k < |kept| && kept[k] == file;
      var context := Context(file.ref, None);
      EnumFieldFailsAsWritten(message, file.ref, extension, j);
      var messages := CollectMessages(file);
      var i :| 0 <= i < |messages| && messages[i] == message;
      assert !PrintMessageInput(messages[i], context, extension).Ok?;
      assert FileBody(messages, context, extension).Err?;
      assert GenerateFile(kept[k], Context(kept[k].ref, None), extension).Err?;
    }
  }
}

=== FILE: naming.dfy ===
/** Output names: the contract file for a `.proto` file, the flattened
    interface name for a message, and the module path of a file's `_pb`
    runtime artifact (naming.ts). */
module Naming {
  import opened Wrappers
  import opened Strings
  import opened Errors
  import opened Descriptors
  import PosixPath

  const ProtoSuffix := ".proto"
  const ContractSuffix := ".contract.ts"
  const InputSuffix := "Input"

  /** The contract file name before the boundary check: `.proto` at the end
      becomes `.contract.ts`; any other name is kept. */
  function ContractName(sourceName: string): string
  {
    ReplaceSuffix(sourceName, ProtoSuffix, ContractSuffix)
  }

  /** `generateContractFileName`: the rewritten name, refused when it holds
      `..` anywhere. */
  function GenerateContractFileName(file: FileRef): (r: Result<string, Error>)
    ensures r.Ok? ==> !Contains(r.value, "..")
    ensures r.Ok? && IsSuffix(ProtoSuffix, file.name) ==>
              r.value == file.name[..|file.name| - |ProtoSuffix|] + ContractSuffix
    ensures r.Ok? && !IsSuffix(ProtoSuffix, file.name) ==> r.value == file.name
    ensures r.Err? ==> r.error == BoundaryViolation(ContractName(file.name))
  {
    var tsName := ContractName(file.name);
    if Contains(tsName, "..") then Err(BoundaryViolation(tsName)) else Ok(tsName)
  }

  lemma NoDoubleDot(t: string)
    requires forall i :: 0 <= i < |t| - 1 ==> !(t[i] == '.' && t[i + 1] == '.')
    ensures !Contains(t, "..")
  {
    if Contains(t, "..") {
      var i :| 0 <= i <= |t| && OccursAt(t, "..", i);
      DoubleDotAt(t, i);
    }
  }

  /** The boundary check fires exactly when the source name itself holds
      `..`: the rewrite neither introduces nor removes a double dot, since
      both suffixes start with a single dot and hold none. So `a..b.proto`
      is refused as well as `../a.proto`. */
  lemma {:induction false} ContractFileNameFailsIffDoubleDot(file: FileRef)
    ensures GenerateContractFileName(file).Err? <==> Contains(file.name, "..")
  {
    var name := file.name;
    if IsSuffix(ProtoSuffix, name) {
      var stem := name[..|name| - |ProtoSuffix|];
      assert name == stem + ProtoSuffix;
      NoDoubleDot(ProtoSuffix);
      NoDoubleDot(ContractSuffix);
      DoubleDotInConcat(stem, ProtoSuffix);
      DoubleDotInConcat(stem, ContractSuffix);
    }
  }

  /** The type name with the package and its following dot removed; the
      whole name when the package is empty. Like `substring`, an offset past
      the end yields "". */
  function WithoutPackage(typeName: string, package: string): string
  {
    var offset := if |package| > 0 then |package| + 1 else 0;
    if offset <= |typeName| then typeName[offset..] else ""
  }

  /** `inputTypeName`: the package-relative type name with nesting dots
      turned into underscores, followed by `Input`. */
  function InputTypeName(typeName: string, package: string): (r: string)
    ensures IsSuffix(InputSuffix, r)
    ensures '.' !in r
    ensures |r| == |WithoutPackage(typeName, package)| + |InputSuffix|
  {
    var flat := ReplaceChar(WithoutPackage(typeName, package), '.', '_');
    assert forall i :: 0 <= i < |flat| ==> flat[i] != '.';
    flat + InputSuffix
  }

  /** A type name declared in `package`: it starts with the package and a dot,
      unless the package is empty. */
  predicate DeclaredIn(typeName: string, package: string) {
    package == "" || IsPrefix(package + ".", typeName)
  }

  /** For a name declared in the package, exactly the package and its dot are
      dropped (none when the package is empty). */
  lemma InputTypeNameDropsPackage(package: string, rest: string)
    ensures package != "" ==>
              InputTypeName(package + "." + rest, package) == ReplaceChar(rest, '.', '_') + InputSuffix
    ensures InputTypeName(rest, "") == ReplaceChar(rest, '.', '_') + InputSuffix
  {
    if package != "" {
      assert (package + "." + rest)[|package| + 1..] == rest;
    }
  }

  lemma ReplaceDotInjective(a: string, b: string)
    requires '_' !in a && '_' !in b
    requires ReplaceChar(a, '.', '_') == ReplaceChar(b, '.', '_')
    ensures a == b
  {
    var ra := ReplaceChar(a, '.', '_');
    forall i | 0 <= i < |a|
      ensures a[i] == b[i]
    {
      assert ra[i] == (if a[i] == '.' then '_' else a[i]);
      assert ra[i] == (if b[i] == '.' then '_' else b[i]);
    }
  }

  /** Distinct type names of one package whose package-relative part
      contains no `_` get distinct interface names, so nested `A.B` and
      `A.C` never collide, whatever the package is called. */
  lemma {:induction false} InputTypeNameInjective(t1: string, t2: string, package: string)
    requires DeclaredIn(t1, package) && DeclaredIn(t2, package)
    requires '_' !in WithoutPackage(t1, package) && '_' !in WithoutPackage(t2, package)
    requires t1 != t2
    ensures InputTypeName(t1, package) != InputTypeName(t2, package)
  {
    var rest1 := WithoutPackage(t1, package);
    var rest2 := WithoutPackage(t2, package);
    var offset := if |package| > 0 then |package| + 1 else 0;
    assert t1 == t1[..offset] + rest1 && t2 == t2[..offset] + rest2;
    assert t1[..offset] == t2[..offset];
    if InputTypeName(t1, package) == InputTypeName(t2, package) {
      var f1 := ReplaceChar(rest1, '.', '_');
      var f2 := ReplaceChar(rest2, '.', '_');
      assert f1 + InputSuffix == f2 + InputSuffix;
      assert f1 == (f1 + InputSuffix)[..|f1|];
      assert f1 == f2;
      assert forall i :: 0 <= i < |rest1| ==> rest1[i] == t1[offset + i];
      assert forall i :: 0 <= i < |rest2| ==> rest2[i] == t2[offset + i];
      ReplaceDotInjective(rest1, rest2);
    }
  }

  /** The mangling itself is not injective once `_` may appear: the nested
      `p.A.B` and the top-level `p.A_B` share one interface name. */
  lemma InputTypeNameUnderscoreCollision()
    ensures InputTypeName("p.A.B", "p") == InputTypeName("p.A_B", "p") == "A_BInput"
  {
    assert "p.A.B" == "p" + "." + "A.B" && "p.A_B" == "p" + "." + "A_B";
    InputTypeNameDropsPackage("p", "A.B");
    InputTypeNameDropsPackage("p", "A_B");
    FlattenNested();
  }

  lemma FlattenNested()
    ensures ReplaceChar("A.B", '.', '_') == "A_B" == ReplaceChar("A_B", '.', '_')
    ensures "A_B" + InputSuffix == "A_BInput"
  {
    var r := ReplaceChar("A.B", '.', '_');
    assert r[0] == 'A' && r[1] == '_' && r[2] == 'B';
    var q := ReplaceChar("A_B", '.', '_');
    assert q[0] == 'A' && q[1] == '_' && q[2] == 'B';
  }

  /** The normalised path of the target file's `_pb` module, `.js` removed:
      `path.normalize(path.join(pbOut, name with .proto -> _pb.js))`. */
  function PbTarget(targetFile: FileRef, pbOut: string): string
  {
    var joined := PosixPath.Join(pbOut, ReplaceSuffix(targetFile.name, ProtoSuffix, "_pb.js"));
    var normalized := PosixPath.Normalize(joined);
    ReplaceSuffix(normalized, ".js", "")
  }

  /** `pbImportPath` as written: the target is kept when it starts with `.`
      and otherwise prefixed by `./`. The importing file plays no part. */
  function PbImportPathAsWritten(fromFile: FileRef, targetFile: FileRef, pbOut: string): (r: string)
    ensures IsPrefix(".", r)
    ensures var t := PbTarget(targetFile, pbOut);
            r == (if IsPrefix(".", t) then t else "./" + t)
  {
    var target := PbTarget(targetFile, pbOut);
    if IsPrefix(".", target) then target else "./" + target
  }

  /** `pbImportPath` with the relative-specifier test it evidently intends:
      the path is kept only when it already starts with `./` or `../`, so the
      result is always a relative module specifier. */
  function PbImportPath(fromFile: FileRef, targetFile: FileRef, pbOut: string): (r: string)
    ensures IsPrefix("./", r) || IsPrefix("../", r)
    ensures var t := PbTarget(targetFile, pbOut);
            r == t || r == "./" + t
  {
    var target := PbTarget(targetFile, pbOut);
    if IsPrefix("./", target) || IsPrefix("../", target) then target else "./" + target
  }

  /** The importing file plays no part in either reading of the path. */
  lemma PbImportPathIgnoresFromFile(a: FileRef, b: FileRef, targetFile: FileRef, pbOut: string)
    ensures PbImportPathAsWritten(a, targetFile, pbOut) == PbImportPathAsWritten(b, targetFile, pbOut)
    ensures PbImportPath(a, targetFile, pbOut) == PbImportPath(b, targetFile, pbOut)
  {
  }

  /** For a `.proto` target the module path ends in `_pb` and has no `.js`,
      whatever `pbOut` is. */
  lemma {:induction false} PbTargetEndsInPb(targetFile: FileRef, pbOut: string)
    requires IsSuffix(ProtoSuffix, targetFile.name)
    ensures IsSuffix("_pb", PbTarget(targetFile, pbOut))
    ensures !IsSuffix(".js", PbTarget(targetFile, pbOut))
  {
    var pbName := ReplaceSuffix(targetFile.name, ProtoSuffix, "_pb.js");
    var joined := PosixPath.Join(pbOut, pbName);
    PosixPath.JoinKeepsLastName(pbOut, pbName, "_pb.js");
    var normalized := PosixPath.Normalize(joined);
    PosixPath.NormalizeKeepsLastName(joined, "_pb.js");
    DropJsKeepsPb(normalized);
  }

  lemma DropJsKeepsPb(s: string)
    requires IsSuffix("_pb.js", s)
    ensures IsSuffix("_pb", ReplaceSuffix(s, ".js", ""))
    ensures !IsSuffix(".js", ReplaceSuffix(s, ".js", ""))
  {
    var t := ReplaceSuffix(s, ".js", "");
    assert IsSuffix(".js", s) by {
      assert s[|s| - 3..] == s[|s| - 6..][3..];
    }
    assert t == s[..|s| - 3];
    assert t[|t| - 3..] == s[|s| - 6..][..3];
    assert t[|t| - 1] == s[|s| - 4] == 'b';
  }

  lemma PbImportPathEndsInPb(fromFile: FileRef, targetFile: FileRef, pbOut: string)
    requires IsSuffix(ProtoSuffix, targetFile.name)
    ensures IsSuffix("_pb", PbImportPathAsWritten(fromFile, targetFile, pbOut))
    ensures IsSuffix("_pb", PbImportPath(fromFile, targetFile, pbOut))
    ensures !IsSuffix(".js", PbImportPath(fromFile, targetFile, pbOut))
  {
    PbTargetEndsInPb(targetFile, pbOut);
    var t := PbTarget(targetFile, pbOut);
    PrefixKeepsSuffix("./", t, "_pb");
    PrefixKeepsSuffix("./", t, ".js");
  }

  lemma PrefixKeepsSuffix(prefix: string, t: string, x: string)
    requires |x| <= |t|
    ensures IsSuffix(x, prefix + t) <==> IsSuffix(x, t)
  {
    assert (prefix + t)[|prefix + t| - |x|..] == t[|t| - |x|..];
  }

  /** For `stem.proto` and a one-segment relative `pbOut`, the module path
      is `pbOut/stem_pb`: normalisation changes nothing, even when `pbOut`
      starts with a dot. */
  lemma PbTargetInDirectory(target: FileRef, pbOut: string, stem: string)
    requires target.name == stem + ProtoSuffix && '/' !in stem
    requires PosixPath.IsName(pbOut) && '/' !in pbOut
    ensures PbTarget(target, pbOut) == pbOut + "/" + stem + "_pb"
  {
    assert target.name[..|stem|] == stem && target.name[|stem|..] == ProtoSuffix;
    var pbName := stem + "_pb.js";
    assert ReplaceSuffix(target.name, ProtoSuffix, "_pb.js") == pbName;
    assert '/' !in pbName by {
      assert forall c :: c in pbName ==> c in stem || c in "_pb.js";
    }
    PosixPath.NormalizeTwoNames(pbOut, pbName);
    var joined := pbOut + "/" + pbName;
    var t := pbOut + "/" + stem + "_pb";
    assert joined == t + ".js";
    assert ReplaceSuffix(joined, ".js", "") == t;
  }

  /** For a target path that starts with a dot but is not a relative
      specifier, the code as written keeps it as it is while the corrected
      test prefixes `./`. */
  lemma DotTargetImportPaths(from: FileRef, target: FileRef, pbOut: string)
    requires var t := PbTarget(target, pbOut); |t| >= 2 && t[0] == '.' && t[1] != '.' && t[1] != '/'
    ensures PbImportPathAsWritten(from, target, pbOut) == PbTarget(target, pbOut)
    ensures PbImportPath(from, target, pbOut) == "./" + PbTarget(target, pbOut)
  {
    var t := PbTarget(target, pbOut);
    assert t[..1] == ['.'];
    assert !IsPrefix("./", t) by { assert t[..2][1] == t[1]; }
    assert !IsPrefix("../", t) by { if |t| >= 3 { assert t[..3][1] == t[1]; } }
  }

  lemma HiddenDirectoryTarget(target: FileRef, pbOut: string)
    requires target.name == "a.proto" && pbOut == ".gen"
    ensures var t := PbTarget(target, pbOut);
            && t == ".gen/a_pb"
            && |t| >= 2 && t[0] == '.' && t[1] != '.' && t[1] != '/'
            && "./" + t == "./.gen/a_pb"
  {
    assert target.name == "a" + ProtoSuffix;
    assert PosixPath.IsName(pbOut) && '/' !in pbOut;
    PbTargetInDirectory(target, pbOut, "a");
    DotSegmentPath(pbOut + "/" + "a" + "_pb");
  }

  lemma DotSegmentPath(t: string)
    requires t == ".gen" + "/" + "a" + "_pb"
    ensures t == ".gen/a_pb"
    ensures |t| >= 2 && t[0] == '.' && t[1] != '.' && t[1] != '/'
    ensures "./" + t == "./.gen/a_pb"
  {
  }

  /** As written, a normalised path that merely starts with a dot, such as
      the one a `pbOut` of `.gen` gives, is returned without `./`, which
      makes it a bare module specifier rather than a relative one. */
  lemma PbImportPathAsWrittenHiddenDirectory(from: FileRef, target: FileRef, pbOut: string)
    requires target.name == "a.proto" && pbOut == ".gen"
    ensures PbImportPathAsWritten(from, target, pbOut) == ".gen/a_pb"
    ensures PbImportPath(from, target, pbOut) == "./.gen/a_pb"
  {
    HiddenDirectoryTarget(target, pbOut);
    DotTargetImportPaths(from, target, pbOut);
  }
}

=== FILE: options.dfy ===
/** Plugin option parsing (options.ts): `skip_pkg=<glob>` entries accumulate
    into the skip list, anything else is an unknown option. */
module Options {
  import opened Wrappers
  import opened Strings
  import opened Errors

  datatype KeyValue = KeyValue(key: string, value: string)

  datatype PluginOptions = PluginOptions(skipPackages: seq<string>)

  const SkipPackageOption := "skip_pkg"
  const DefaultSkipPackages: seq<string> := ["google.*", "buf.*"]

  /** How an unknown entry is listed in the error: `key=value`, or just
      `key` when the value is empty. */
  function UnknownEntry(kv: KeyValue): string
  {
    if |kv.value| > 0 then kv.key + "=" + kv.value else kv.key
  }

  /** An unknown entry starts with its key; `=` and the value follow
      exactly when the value is non-empty. */
  lemma UnknownEntryShape(kv: KeyValue)
    ensures IsPrefix(kv.key, UnknownEntry(kv))
    ensures |kv.value| == 0 <==> UnknownEntry(kv) == kv.key
    ensures |kv.value| > 0 ==> UnknownEntry(kv)[|kv.key|..] == "=" + kv.value
  {
    var r := UnknownEntry(kv);
    if |kv.value| > 0 {
      assert r == kv.key + ("=" + kv.value);
    }
  }

  /** The trimmed values of the `skip_pkg` entries, in input order. */
  function SkipValues(raw: seq<KeyValue>): seq<string>
  {
    if |raw| == 0 then []
    else
      var last := raw[|raw| - 1];
      SkipValues(raw[..|raw| - 1]) + (if last.key == SkipPackageOption then [Trim(last.value)] else [])
  }

  /** The unknown entries, rendered, in input order. */
  function UnknownEntries(raw: seq<KeyValue>): seq<string>
  {
    if |raw| == 0 then []
    else
      var last := raw[|raw| - 1];
      UnknownEntries(raw[..|raw| - 1]) + (if last.key != SkipPackageOption then [UnknownEntry(last)] else [])
  }

  /** A `skip_pkg` entry that is blank once trimmed. */
  predicate IsBlankSkipPackage(kv: KeyValue) {
    kv.key == SkipPackageOption && Trim(kv.value) == ""
  }

  /** Some `skip_pkg` entry is blank once trimmed. */
  predicate HasEmptySkipPackage(raw: seq<KeyValue>) {
    exists i :: 0 <= i < |raw| && IsBlankSkipPackage(raw[i])
  }

  /** `[...new Set(s)]`: each element once, at its first occurrence. */
  function Dedup(s: seq<string>): seq<string>
  {
    if |s| == 0 then []
    else
      var d := Dedup(s[..|s| - 1]);
      if s[|s| - 1] in d then d else d + [s[|s| - 1]]
  }

  predicate NoDuplicates(s: seq<string>) {
    forall i, j :: 0 <= i < j < |s| ==> s[i] != s[j]
  }

  /** The options `parseOptions` returns when nothing is wrong. */
  function ExpectedOptions(raw: seq<KeyValue>): PluginOptions
  {
    var skip := Dedup(SkipValues(raw));
    PluginOptions(if |skip| > 0 then skip else DefaultSkipPackages)
  }

  /** `parseOptions`. A blank `skip_pkg` fails at once, even after unknown
      keys; unknown keys are collected and reported together at the end;
      otherwise the deduplicated skip list, or the defaults when it is empty. */
  method ParseOptions(raw: seq<KeyValue>) returns (r: Result<PluginOptions, Error>)
    ensures HasEmptySkipPackage(raw) ==> r == Err(EmptySkipPackage)
    ensures !HasEmptySkipPackage(raw) && |UnknownEntries(raw)| > 0 ==>
              r == Err(UnknownOptions(UnknownEntries(raw)))
    ensures !HasEmptySkipPackage(raw) && |UnknownEntries(raw)| == 0 ==> r == Ok(ExpectedOptions(raw))
  {
    var skipPackages: seq<string> := [];
    var unknownOptions: seq<string> := [];
    for i := 0 to |raw|
      invariant skipPackages == Dedup(SkipValues(raw[..i]))
      invariant unknownOptions == UnknownEntries(raw[..i])
      invariant !HasEmptySkipPackage(raw[..i])
    {
      var kv := raw[i];
      PrefixStep(raw, i);
      if kv.key == SkipPackageOption {
        var trimmed := Trim(kv.value);
        if |trimmed| == 0 {
          BlankEntryFound(raw, i);
          return Err(EmptySkipPackage);
        }
        assert !IsBlankSkipPackage(kv);
        assert SkipValues(raw[..i + 1]) == SkipValues(raw[..i]) + [trimmed];
        DedupStep(SkipValues(raw[..i]), trimmed);
        if trimmed !in skipPackages {
          skipPackages := skipPackages + [trimmed];
        }
      } else {
        assert !IsBlankSkipPackage(kv);
        assert SkipValues(raw[..i + 1]) == SkipValues(raw[..i]) + [];
        assert SkipValues(raw[..i]) + [] == SkipValues(raw[..i]);
        unknownOptions := unknownOptions + [UnknownEntry(kv)];
      }
    }
    assert raw[..|raw|] == raw;
    if |unknownOptions| > 0 {
      return Err(UnknownOptions(unknownOptions));
    }
    return Ok(PluginOptions(if |skipPackages| > 0 then skipPackages else DefaultSkipPackages));
  }

  /** What one more entry adds to the folds. */
  lemma PrefixStep(raw: seq<KeyValue>, i: int)
    requires 0 <= i < |raw|
    ensures var kv := raw[i];
            && SkipValues(raw[..i + 1]) ==
                 SkipValues(raw[..i]) + (if kv.key == SkipPackageOption then [Trim(kv.value)] else [])
            && UnknownEntries(raw[..i + 1]) ==
                 UnknownEntries(raw[..i]) + (if kv.key != SkipPackageOption then [UnknownEntry(kv)] else [])
            && (!HasEmptySkipPackage(raw[..i]) && !IsBlankSkipPackage(kv) ==> !HasEmptySkipPackage(raw[..i + 1]))
  {
    var p := raw[..i + 1];
    assert p[..i] == raw[..i] && p[i] == raw[i];
    if !HasEmptySkipPackage(raw[..i]) && !IsBlankSkipPackage(raw[i]) {
      forall k | 0 <= k < i + 1
        ensures !IsBlankSkipPackage(p[k])
      {
        if k < i {
          assert p[k] == raw[..i][k];
        }
      }
    }
  }

  lemma BlankEntryFound(raw: seq<KeyValue>, i: int)
    requires 0 <= i < |raw| && IsBlankSkipPackage(raw[i])
    ensures HasEmptySkipPackage(raw)
  {
  }

  /** Deduplicating one more value appends it unless it was already seen. */
  lemma DedupStep(s: seq<string>, x: string)
    ensures Dedup(s + [x]) == (if x in Dedup(s) then Dedup(s) else Dedup(s) + [x])
  {
    assert (s + [x])[..|s|] == s;
  }

  /** Deduplication keeps exactly the elements of the input. */
  lemma {:induction false} DedupSameElements(s: seq<string>)
    ensures forall x :: x in Dedup(s) <==> x in s
  {
    if |s| > 0 {
      DedupSameElements(s[..|s| - 1]);
      assert s == s[..|s| - 1] + [s[|s| - 1]];
    }
  }

  /** Deduplication leaves every element once. */
  lemma {:induction false} DedupNoDuplicates(s: seq<string>)
    ensures NoDuplicates(Dedup(s))
  {
    if |s| > 0 {
      DedupNoDuplicates(s[..|s| - 1]);
    }
  }

  /** The index of the first occurrence of `x` in `s`. */
  function FirstIndex(s: seq<string>, x: string): (i: nat)
    requires x in s
    ensures i < |s| && s[i] == x
    ensures forall k :: 0 <= k < i ==> s[k] != x
  {
    if s[0] == x then 0 else 1 + FirstIndex(s[1..], x)
  }

  lemma FirstIndexOfExtension(s: seq<string>, y: string, x: string)
    requires x in s
    ensures FirstIndex(s + [y], x) == FirstIndex(s, x)
  {
    var i := FirstIndex(s, x);
    var j := FirstIndex(s + [y], x);
    assert (s + [y])[i] == x;
    assert s[j] == x by { if j >= |s| { assert false; } }
  }

  /** Every element of `d` occurs in `s`, and earlier in `d` means first
      occurring earlier in `s`. */
  predicate InFirstOccurrenceOrder(d: seq<string>, s: seq<string>) {
    forall i, j :: 0 <= i < j < |d| ==>
      d[i] in s && d[j] in s && FirstIndex(s, d[i]) < FirstIndex(s, d[j])
  }

  /** Deduplication keeps first occurrences in input order: an element
      listed earlier first occurred earlier. */
  lemma {:induction false} DedupKeepsFirstOccurrenceOrder(s: seq<string>)
    ensures InFirstOccurrenceOrder(Dedup(s), s)
  {
    if |s| > 0 {
      var init := s[..|s| - 1];
      var x := s[|s| - 1];
      var d0 := Dedup(init);
      var d := Dedup(s);
      DedupKeepsFirstOccurrenceOrder(init);
      DedupSameElements(init);
      assert s == init + [x];
      forall y | y in init
        ensures y in s && FirstIndex(s, y) == FirstIndex(init, y)
      {
        FirstIndexOfExtension(init, x, y);
      }
      if x !in d0 {
        assert FirstIndex(s, x) == |init|;
      }
      forall i, j | 0 <= i < j < |d|
        ensures d[i] in s && d[j] in s && FirstIndex(s, d[i]) < FirstIndex(s, d[j])
      {
        assert d[i] == d0[i] && d[i] in init;
        if j < |d0| {
          assert d[j] == d0[j] && d[j] in init;
        } else {
          assert x !in d0 && d[j] == x;
          assert FirstIndex(s, d[i]) == FirstIndex(init, d[i]) < |init|;
        }
      }
    }
  }

  /** A successful parse yields a non-empty list of non-empty patterns, none
      repeated: the `skip_pkg` values, trimmed and deduplicated, or the
      defaults when there are none. */
  lemma ParsedSkipPackagesWellFormed(raw: seq<KeyValue>)
    requires !HasEmptySkipPackage(raw)
    ensures var p := ExpectedOptions(raw).skipPackages;
            |p| > 0 && NoDuplicates(p) && forall k :: 0 <= k < |p| ==> |p[k]| > 0
    ensures (forall k :: 0 <= k < |raw| ==> raw[k].key != SkipPackageOption) ==>
              ExpectedOptions(raw).skipPackages == DefaultSkipPackages
  {
    var values := SkipValues(raw);
    SkipValuesNonEmpty(raw);
    DedupSameElements(values);
    DedupNoDuplicates(values);
    if forall k :: 0 <= k < |raw| ==> raw[k].key != SkipPackageOption {
      SkipValuesAbsent(raw);
    }
  }

  lemma {:induction false} SkipValuesNonEmpty(raw: seq<KeyValue>)
    requires !HasEmptySkipPackage(raw)
    ensures forall v :: v in SkipValues(raw) ==> |v| > 0
  {
    if |raw| > 0 {
      var init := raw[..|raw| - 1];
      assert !HasEmptySkipPackage(init) by {
        forall k | 0 <= k < |init| ensures !IsBlankSkipPackage(init[k]) {
          assert init[k] == raw[k];
        }
      }
      SkipValuesNonEmpty(init);
    }
  }

  lemma {:induction false} SkipValuesAbsent(raw: seq<KeyValue>)
    requires forall k :: 0 <= k < |raw| ==> raw[k].key != SkipPackageOption
    ensures SkipValues(raw) == []
  {
    if |raw| > 0 {
      SkipValuesAbsent(raw[..|raw| - 1]);
    }
  }
}

=== FILE: package_glob.dfy ===
/** The package filters of generator.ts (`createPackageMatchers`): a user
    pattern is rewritten into a regular expression source and matched with
    JavaScript regex semantics.

    The model covers the regex subset the rewrite can produce from patterns
    over a restricted alphabet: ordinary characters, `.` (any character but a
    line terminator), `*` (rewritten to `.*`), a leading `^` and a trailing
    `$`. `RegexMatch` gives that subset its regex meaning; `Glob` is the
    reading a user has in mind, and `CompiledMatchesIffGlob` shows the two
    agree. */
module PackageGlob {
  import opened Strings

  /** The characters JavaScript's `.` does not match. */
  predicate IsLineTerminator(c: char) {
    c == '\n' || c == '\r' || c == '\U{2028}' || c == '\U{2029}'
  }

  /** Characters with a meaning in a JavaScript regular expression. */
  predicate IsRegexSpecial(c: char) {
    c in "\\^$.|?*+()[]{}"
  }

  /** Patterns inside the modelled alphabet: no regex syntax except `.` and
      `*`, a `^` only in front and a `$` only at the end. */
  predicate SimplePattern(pattern: string) {
    forall i :: 0 <= i < |pattern| ==>
      && (pattern[i] == '^' ==> i == 0)
      && (pattern[i] == '$' ==> i == |pattern| - 1)
      && (IsRegexSpecial(pattern[i]) ==> pattern[i] in "^$.*")
  }

  /** `s.replace(/\*\/g, ".*")`. */
  function RewriteStars(s: string): (r: string)
    ensures forall c :: c in r && c != '.' ==> c in s
    ensures |r| > 0 && |s| > 0 ==> r[0] == (if s[0] == '*' then '.' else s[0])
  {
    if |s| == 0 then ""
    else if s[0] == '*' then ".*" + RewriteStars(s[1..])
    else [s[0]] + RewriteStars(s[1..])
  }

  /** `pattern.startsWith("^")`. */
  predicate StartsWithAnchor(pattern: string) {
    |pattern| > 0 && pattern[0] == '^'
  }

  /** `pattern.endsWith("$")`. */
  predicate EndsWithAnchor(pattern: string) {
    |pattern| > 0 && pattern[|pattern| - 1] == '$'
  }

  /** The pattern without the anchors the user may have written. */
  function Body(pattern: string): string
  {
    var start := if StartsWithAnchor(pattern) then 1 else 0;
    var end := if EndsWithAnchor(pattern) then |pattern| - 1 else |pattern|;
    pattern[start..end]
  }

  /** The regular expression source `createPackageMatchers` builds: the
      rewritten pattern with `^` in front unless it starts with one, and `$`
      at the end unless it ends with one. Whatever the user wrote, the source
      is the rewritten body between exactly one pair of anchors. */
  function CompileSource(pattern: string): (r: string)
    ensures r == "^" + RewriteStars(Body(pattern)) + "$"
  {
    var front := if StartsWithAnchor(pattern) then "" else "^";
    var back := if EndsWithAnchor(pattern) then "" else "$";
    CompileShape(pattern);
    front + RewriteStars(pattern) + back
  }

  lemma {:induction false} RewriteStarsConcat(a: string, b: string)
    ensures RewriteStars(a + b) == RewriteStars(a) + RewriteStars(b)
    decreases |a|
  {
    if |a| > 0 {
      assert (a + b)[1..] == a[1..] + b;
      RewriteStarsConcat(a[1..], b);
    } else {
      assert a + b == b;
    }
  }

  /** The four cases of adding anchors: a user anchor replaces the one the
      rewrite would add. */
  lemma CompileShape(pattern: string)
    ensures (if StartsWithAnchor(pattern) then "" else "^") + RewriteStars(pattern) +
            (if EndsWithAnchor(pattern) then "" else "$")
            == "^" + RewriteStars(Body(pattern)) + "$"
  {
    var b := Body(pattern);
    assert RewriteStars("^") == "^" && RewriteStars("$") == "$";
    if StartsWithAnchor(pattern) && EndsWithAnchor(pattern) {
      assert pattern == "^" + (b + "$");
      RewriteStarsConcat("^", b + "$");
      RewriteStarsConcat(b, "$");
    } else if StartsWithAnchor(pattern) {
      assert pattern == "^" + b;
      RewriteStarsConcat("^", b);
    } else if EndsWithAnchor(pattern) {
      assert pattern == b + "$";
      RewriteStarsConcat(b, "$");
    } else {
      assert pattern == b;
    }
  }

  /** Within the modelled alphabet, the rewritten body holds neither anchor. */
  lemma BodyHasNoAnchors(pattern: string)
    requires SimplePattern(pattern)
    ensures '^' !in RewriteStars(Body(pattern)) && '$' !in RewriteStars(Body(pattern))
  {
    var b := Body(pattern);
    var start := if StartsWithAnchor(pattern) then 1 else 0;
    forall i | 0 <= i < |b|
      ensures b[i] != '^' && b[i] != '$'
    {
      assert pattern[i + start] == b[i];
    }
  }

  /** One regex atom against one character: `.` is any character but a line
      terminator, anything else stands for itself. */
  predicate AtomMatches(atom: char, c: char) {
    if atom == '.' then !IsLineTerminator(c) else atom == c
  }

  /** Whole-string matching of a regex body built from atoms, each
      optionally followed by `*` (zero or more repetitions). */
  predicate RegexMatch(r: string, s: string)
    decreases |r| + |s|
  {
    if |r| == 0 then |s| == 0
    else if |r| >= 2 && r[1] == '*' then
      RegexMatch(r[2..], s) || (|s| > 0 && AtomMatches(r[0], s[0]) && RegexMatch(r, s[1..]))
    else |s| > 0 && AtomMatches(r[0], s[0]) && RegexMatch(r[1..], s[1..])
  }

  /** The regex body matches the part `s[i..j]`. */
  predicate MatchesAt(body: string, s: string, i: int, j: int) {
    0 <= i <= j <= |s| && RegexMatch(body, s[i..j])
  }

  /** A source split into its optional `^`, its body and its optional `$`. */
  datatype Regex = Regex(startAnchor: bool, body: string, endAnchor: bool)

  function Parse(source: string): Regex
  {
    var startAnchor := StartsWithAnchor(source);
    var rest := if startAnchor then source[1..] else source;
    var endAnchor := EndsWithAnchor(rest);
    Regex(startAnchor, if endAnchor then rest[..|rest| - 1] else rest, endAnchor)
  }

  /** `RegExp.prototype.test` for a source that is an optional `^`, a body
      and an optional `$`: some part of `s` matches the body, starting at 0
      when `^` is present and ending at `|s|` when `$` is. */
  predicate Test(source: string, s: string) {
    var re := Parse(source);
    exists i, j | 0 <= i <= j <= |s| ::
      MatchesAt(re.body, s, i, j) && (re.startAnchor ==> i == 0) && (re.endAnchor ==> j == |s|)
  }

  /** The user's reading of a pattern: `*` is any run of characters, `.` is
      one character, anything else stands for itself (line terminators
      excepted, as in the regex). */
  predicate Glob(g: string, s: string)
    decreases |g| + |s|
  {
    if |g| == 0 then |s| == 0
    else if g[0] == '*' then
      Glob(g[1..], s) || (|s| > 0 && !IsLineTerminator(s[0]) && Glob(g, s[1..]))
    else |s| > 0 && AtomMatches(g[0], s[0]) && Glob(g[1..], s[1..])
  }

  /** The rewritten pattern, read as a regex, means the glob. */
  lemma {:induction false} RewriteMatchesGlob(g: string, s: string)
    ensures RegexMatch(RewriteStars(g), s) <==> Glob(g, s)
    decreases |g| + |s|
  {
    var r := RewriteStars(g);
    if |g| == 0 {
    } else if g[0] == '*' {
      assert r == ".*" + RewriteStars(g[1..]);
      assert r[2..] == RewriteStars(g[1..]);
      RewriteMatchesGlob(g[1..], s);
      if |s| > 0 {
        RewriteMatchesGlob(g, s[1..]);
      }
    } else {
      assert r == [g[0]] + RewriteStars(g[1..]);
      assert r[1..] == RewriteStars(g[1..]);
      assert |r| >= 2 ==> r[1] != '*';
      if |s| > 0 {
        RewriteMatchesGlob(g[1..], s[1..]);
      }
    }
  }

  /** With `^` in front and `$` at the end, `test` is whole-string matching
      of the body. */
  lemma TestFullyAnchored(body: string, s: string)
    requires '$' !in body
    ensures Test("^" + body + "$", s) <==> RegexMatch(body, s)
  {
    var source := "^" + body + "$";
    assert source[1..] == body + "$";
    assert (body + "$")[..|body|] == body;
    assert s[0..|s|] == s;
    assert Parse(source) == Regex(true, body, true);
    if RegexMatch(body, s) {
      assert MatchesAt(body, s, 0, |s|);
    }
    if Test(source, s) {
      var i, j :| 0 <= i <= j <= |s| && MatchesAt(body, s, i, j) && i == 0 && j == |s|;
      assert s[i..j] == s;
    }
  }

  /** A compiled pattern matches a whole package name exactly when the glob
      does: the anchors rule out partial matches, whether the user wrote them
      or not. */
  lemma CompiledMatchesIffGlob(pattern: string, s: string)
    requires SimplePattern(pattern)
    ensures Test(CompileSource(pattern), s) <==> Glob(Body(pattern), s)
  {
    var body := RewriteStars(Body(pattern));
    BodyHasNoAnchors(pattern);
    TestFullyAnchored(body, s);
    RewriteMatchesGlob(Body(pattern), s);
  }

  /** The compiled source holds exactly one `^`, in front, and one `$`, at
      the end. */
  lemma CompiledAnchorsAtEndsOnly(pattern: string)
    requires SimplePattern(pattern)
    ensures var r := CompileSource(pattern);
            && r[0] == '^' && r[|r| - 1] == '$'
            && '^' !in r[1..] && '$' !in r[..|r| - 1]
  {
    var body := RewriteStars(Body(pattern));
    BodyHasNoAnchors(pattern);
    var r := CompileSource(pattern);
    assert r[1..] == body + "$";
    assert r[..|r| - 1] == "^" + body;
  }

  /** A user-supplied anchor is not doubled: `^google.*$` compiles to the same
      source as `google.*`. */
  lemma AnchorsNotDuplicated(pattern: string)
    requires SimplePattern(pattern) && SimplePattern("^" + pattern + "$")
    ensures CompileSource("^" + pattern + "$") == CompileSource(pattern)
  {
    var p := "^" + pattern + "$";
    assert p[1..] == pattern + "$";
    assert (pattern + "$")[..|pattern|] == pattern;
    assert !StartsWithAnchor(pattern) by {
      if |pattern| > 0 { assert p[1] == pattern[0]; }
    }
    assert !EndsWithAnchor(pattern) by {
      if |pattern| > 0 { assert p[|p| - 2] == pattern[|pattern| - 1]; }
    }
    assert Body(p) == pattern == Body(pattern);
  }

  /** A `*` matches any text without line terminators. */
  lemma {:induction false} StarMatchesAll(s: string)
    requires forall i :: 0 <= i < |s| ==> !IsLineTerminator(s[i])
    ensures Glob("*", s)
  {
    if |s| > 0 {
      StarMatchesAll(s[1..]);
    }
  }

  /** Ordinary characters match themselves and nothing else. */
  lemma {:induction false} GlobLiteralPrefix(lit: string, g: string, s: string)
    requires forall i :: 0 <= i < |lit| ==> lit[i] != '*' && lit[i] != '.'
    ensures Glob(lit + g, lit + s) <==> Glob(g, s)
  {
    if |lit| > 0 {
      assert (lit + g)[1..] == lit[1..] + g;
      assert (lit + s)[1..] == lit[1..] + s;
      GlobLiteralPrefix(lit[1..], g, s);
    } else {
      assert lit + g == g && lit + s == s;
    }
  }

  /** `google.*` matches `google.protobuf` but not `google`: the pattern's
      `.` still demands one character before the `*`. */
  lemma GoogleStarExample(g: string, yes: string, no: string)
    requires g == "google.*" && yes == "google.protobuf" && no == "google"
    ensures Glob(g, yes)
    ensures !Glob(g, no)
  {
    assert g == "google" + ".*";
    assert yes == "google" + ".protobuf";
    assert no == "google" + "";
    GlobLiteralPrefix("google", ".*", ".protobuf");
    GlobLiteralPrefix("google", ".*", "");
    StarMatchesAll("protobuf");
    assert ".protobuf"[1..] == "protobuf";
  }
}

=== FILE: posix_path.dfy ===
/** The two functions of Node's `path.posix` the naming rules use:
    `normalize` and two-argument `join`. Paths are split on `/` into
    segments; `.` and empty segments vanish, `x/..` cancels, and a `..`
    that has nothing to cancel is kept in a relative path and dropped in an
    absolute one. A trailing `/` survives normalisation. */
module PosixPath {
  import opened Strings

  /** `s.split("/")`, built from the right. */
  function Split(s: string): (r: seq<string>)
    ensures |r| >= 1
  {
    if |s| == 0 then [""]
    else if s[|s| - 1] == '/' then Split(s[..|s| - 1]) + [""]
    else
      var init := Split(s[..|s| - 1]);
      init[..|init| - 1] + [init[|init| - 1] + [s[|s| - 1]]]
  }

  /** `segments.join("/")`, built from the right. */
  function JoinSegments(segments: seq<string>): string
  {
    if |segments| == 0 then ""
    else if |segments| == 1 then segments[0]
    else JoinSegments(segments[..|segments| - 1]) + "/" + segments[|segments| - 1]
  }

  /** A segment that normalisation keeps as it is. */
  predicate IsName(segment: string) {
    segment != "" && segment != "." && segment != ".."
  }

  /** One step of normalisation: push a name, cancel on `..`. */
  function Step(stack: seq<string>, segment: string, allowAboveRoot: bool): seq<string>
  {
    if segment == "" || segment == "." then stack
    else if segment == ".." then
      if |stack| > 0 && stack[|stack| - 1] != ".." then stack[..|stack| - 1]
      else if allowAboveRoot then stack + [".."]
      else stack
    else stack + [segment]
  }

  /** Node's `normalizeString`: the segments left after folding `Step`
      over `segments` from the left. */
  function Resolve(segments: seq<string>, allowAboveRoot: bool): (r: seq<string>)
    ensures forall i :: 0 <= i < |r| ==> r[i] != "" && r[i] != "."
    ensures !allowAboveRoot ==> forall i :: 0 <= i < |r| ==> IsName(r[i])
  {
    if |segments| == 0 then []
    else Step(Resolve(segments[..|segments| - 1], allowAboveRoot), segments[|segments| - 1], allowAboveRoot)
  }

  /** `path.posix.normalize(p)`. */
  function Normalize(p: string): (r: string)
    ensures |r| > 0
    ensures |p| == 0 ==> r == "."
  {
    if |p| == 0 then "."
    else Reassemble(p, JoinSegments(Resolve(Split(p), p[0] != '/')))
  }

  /** The last part of `normalize`: the resolved body with the leading `/`
      of an absolute path and the trailing separator of `p` put back; an
      empty body becomes `/`, `./` or `.`. */
  function Reassemble(p: string, body: string): (r: string)
    requires |p| > 0
    ensures |r| > 0
  {
    var isAbsolute := p[0] == '/';
    var trailingSeparator := p[|p| - 1] == '/';
    if |body| == 0 then
      if isAbsolute then "/" else if trailingSeparator then "./" else "."
    else
      (if isAbsolute then "/" else "") + body + (if trailingSeparator then "/" else "")
  }

  /** `path.posix.join(a, b)`: the non-empty arguments joined by `/`, then
      normalised; `.` when both are empty. */
  function Join(a: string, b: string): (r: string)
    ensures |r| > 0
    ensures |a| == 0 && |b| == 0 ==> r == "."
  {
    if |a| == 0 && |b| == 0 then "."
    else if |a| == 0 then Normalize(b)
    else if |b| == 0 then Normalize(a)
    else Normalize(a + "/" + b)
  }

  /** Appending slash-free text to a path extends its last segment. */
  lemma {:induction false} SplitExtendsLast(p: string, t: string)
    requires '/' !in t
    ensures var s := Split(p + t); var q := Split(p);
            |s| == |q| && s[..|s| - 1] == q[..|q| - 1] && s[|s| - 1] == q[|q| - 1] + t
    decreases |t|
  {
    if |t| > 0 {
      var t' := t[..|t| - 1];
      assert (p + t)[..|p + t| - 1] == p + t';
      SplitExtendsLast(p, t');
    } else {
      assert p + t == p;
    }
  }

  /** The joined text ends with the last segment. */
  lemma JoinEndsWithLast(segments: seq<string>)
    requires |segments| > 0
    ensures IsSuffix(segments[|segments| - 1], JoinSegments(segments))
  {
  }

  /** A segment ending in a name is a name itself. */
  lemma SuffixOfNameSegment(segment: string, x: string)
    requires IsSuffix(x, segment) && IsName(x)
    ensures IsName(segment)
  {
  }

  /** A trailing name is pushed by the last step of the fold. */
  lemma ResolveEndsWithName(segments: seq<string>, allowAboveRoot: bool)
    requires |segments| > 0 && IsName(segments[|segments| - 1])
    ensures var r := Resolve(segments, allowAboveRoot);
            |r| > 0 && r[|r| - 1] == segments[|segments| - 1]
  {
  }

  /** Without a trailing separator, reassembly ends with the body. */
  lemma ReassembleEndsWithBody(p: string, body: string)
    requires |p| > 0 && p[|p| - 1] != '/'
    ensures IsSuffix(body, Reassemble(p, body))
  {
    var r := Reassemble(p, body);
    if |body| == 0 {
      assert r[|r|..] == body;
    } else if p[0] == '/' {
      assert r == "/" + body;
      assert r[1..] == body;
    } else {
      assert r == body;
    }
  }

  /** A path whose last segment is a name ending in `x` still ends in `x`
      once normalised: the last step pushes that name onto the result. */
  lemma NormalizeKeepsLastName(p: string, x: string)
    requires IsSuffix(x, p)
    requires IsName(x) && '/' !in x
    ensures IsSuffix(x, Normalize(p))
  {
    var stem := p[..|p| - |x|];
    assert p == stem + x;
    SplitExtendsLast(stem, x);
    var segments := Split(p);
    var last := segments[|segments| - 1];
    SuffixOfNameSegment(last, x);
    var resolved := Resolve(segments, p[0] != '/');
    ResolveEndsWithName(segments, p[0] != '/');
    JoinEndsWithLast(resolved);
    var body := JoinSegments(resolved);
    SuffixTransitive(x, last, body);
    assert p[|p| - 1] == x[|x| - 1];
    ReassembleEndsWithBody(p, body);
    SuffixTransitive(x, body, Normalize(p));
  }

  /** Joining onto a path that ends in a slash-free name keeps that ending. */
  lemma JoinKeepsLastName(a: string, b: string, x: string)
    requires IsSuffix(x, b)
    requires IsName(x) && '/' !in x
    ensures IsSuffix(x, Join(a, b))
  {
    if |a| == 0 {
      NormalizeKeepsLastName(b, x);
    } else {
      var p := a + "/" + b;
      assert p[|p| - |x|..] == b[|b| - |x|..];
      NormalizeKeepsLastName(p, x);
    }
  }

  /** A slash-free string is one segment. */
  lemma SplitOneSegment(a: string)
    requires '/' !in a
    ensures Split(a) == [a]
  {
    SplitExtendsLast("", a);
    assert "" + a == a;
    var sa := Split(a);
    assert |sa| == 1 && sa[0] == "" + a;
  }

  /** A trailing `/` opens an empty segment. */
  lemma SplitAfterSeparator(a: string)
    ensures Split(a + "/") == Split(a) + [""]
  {
    var a' := a + "/";
    assert a'[..|a'| - 1] == a && a'[|a'| - 1] == '/';
  }

  /** Two slash-free segments split apart at the one separator. */
  lemma SplitTwoSegments(a: string, b: string)
    requires '/' !in a && '/' !in b
    ensures Split(a + "/" + b) == [a, b]
  {
    SplitOneSegment(a);
    SplitAfterSeparator(a);
    SplitExtendsLast(a + "/", b);
    var s := Split(a + "/" + b);
    assert "" + b == b;
    assert |s| == 2 && s[..1] == [a] && s[1] == b;
    assert s[0] == s[..1][0];
    assert s == [s[0], s[1]];
  }

  lemma ResolveTwoNames(a: string, b: string)
    requires IsName(a) && IsName(b)
    ensures Resolve([a, b], true) == [a, b]
  {
    assert [a, b][..1] == [a];
    assert [a][..0] == [];
    assert Resolve([a], true) == Step(Resolve([], true), a, true) == [a];
    assert Resolve([a, b], true) == Step([a], b, true);
  }

  /** A relative path of two names is already normal, even when the first
      starts with a dot: `.gen/a_pb.js` stays as it is. */
  lemma NormalizeTwoNames(a: string, b: string)
    requires IsName(a) && IsName(b) && '/' !in a && '/' !in b
    ensures Normalize(a + "/" + b) == a + "/" + b
  {
    var p := a + "/" + b;
    SplitTwoSegments(a, b);
    assert p[0] == a[0] != '/';
    assert p[|p| - 1] == b[|b| - 1] != '/';
    ResolveTwoNames(a, b);
    assert JoinSegments([a, b]) == JoinSegments([a]) + "/" + b;
    assert Reassemble(p, p) == p;
  }
}

=== FILE: sequences.dfy ===
/** Order-preserving filtering of sequences and the subsequence relation
    it produces. */
module Sequences {

  /** The elements of `xs` that satisfy `keep`, in their order. */
  function Filter<T(==,!new)>(xs: seq<T>, keep: T -> bool): (r: seq<T>)
    ensures forall x :: x in r <==> x in xs && keep(x)
  {
    if |xs| == 0 then []
    else Filter(xs[..|xs| - 1], keep) + (if keep(xs[|xs| - 1]) then [xs[|xs| - 1]] else [])
  }

  /** Each kept element appears as often as `xs` holds it, every other one
      never. */
  lemma {:induction false} FilterCount<T(!new)>(xs: seq<T>, keep: T -> bool)
    ensures forall x :: multiset(Filter(xs, keep))[x] == (if keep(x) then multiset(xs)[x] else 0)
  {
    if |xs| > 0 {
      var init := xs[..|xs| - 1];
      var x := xs[|xs| - 1];
      assert xs == init + [x];
      FilterCount(init, keep);
    }
  }

  /** `sub` is `s` with some elements left out, the rest in their order. */
  predicate IsSubsequence<T(==)>(sub: seq<T>, s: seq<T>)
    decreases |s|
  {
    if |sub| == 0 then true
    else if |s| == 0 then false
    else if sub[|sub| - 1] == s[|s| - 1] then IsSubsequence(sub[..|sub| - 1], s[..|s| - 1])
    else IsSubsequence(sub, s[..|s| - 1])
  }

  lemma {:induction false} SubsequenceExtend<T>(sub: seq<T>, s: seq<T>, x: T)
    requires IsSubsequence(sub, s)
    ensures IsSubsequence(sub, s + [x])
    decreases |s|, 1
  {
    var t := s + [x];
    assert t[..|t| - 1] == s;
    if |sub| > 0 && sub[|sub| - 1] == x {
      SubsequenceDropLast(sub, s);
    }
  }

  lemma {:induction false} SubsequenceDropLast<T>(sub: seq<T>, s: seq<T>)
    requires |sub| > 0 && IsSubsequence(sub, s)
    ensures IsSubsequence(sub[..|sub| - 1], s)
    decreases |s|, 0
  {
    var init := sub[..|sub| - 1];
    if |s| > 0 {
      if sub[|sub| - 1] != s[|s| - 1] {
        SubsequenceDropLast(sub, s[..|s| - 1]);
      }
      SubsequenceExtend(init, s[..|s| - 1], s[|s| - 1]);
      assert s[..|s| - 1] + [s[|s| - 1]] == s;
    }
  }

  /** Filtering keeps the input order. */
  lemma {:induction false} FilterIsSubsequence<T(!new)>(xs: seq<T>, keep: T -> bool)
    ensures IsSubsequence(Filter(xs, keep), xs)
  {
    if |xs| > 0 {
      var init := xs[..|xs| - 1];
      var x := xs[|xs| - 1];
      var kept := Filter(init, keep);
      var r := Filter(xs, keep);
      FilterIsSubsequence(init, keep);
      if keep(x) {
        assert r == kept + [x];
        assert r[..|r| - 1] == kept && r[|r| - 1] == x;
      } else {
        assert r == kept;
        SubsequenceExtend(kept, init, x);
        assert init + [x] == xs;
      }
    }
  }
}

=== FILE: strings.dfy ===
/** String helpers: prefixes, suffixes, substrings, character replacement,
    joining, trimming and the ordinal ordering used by `>` on strings. */
module Strings {

  predicate IsPrefix(p: string, s: string) {
    |p| <= |s| && s[..|p|] == p
  }

  predicate IsSuffix(p: string, s: string) {
    |p| <= |s| && s[|s| - |p|..] == p
  }

  lemma SuffixTransitive(a: string, b: string, c: string)
    requires IsSuffix(a, b) && IsSuffix(b, c)
    ensures IsSuffix(a, c)
  {
    assert c[|c| - |a|..] == c[|c| - |b|..][|b| - |a|..];
  }

  /** `sub` occurs in `s` starting at index `i`. */
  predicate OccursAt(s: string, sub: string, i: int) {
    0 <= i && i + |sub| <= |s| && s[i..i + |sub|] == sub
  }

  /** JavaScript `s.includes(sub)`. */
  predicate Contains(s: string, sub: string) {
    exists i :: 0 <= i <= |s| && OccursAt(s, sub, i)
  }

  /** `"..".includes` specialised: two consecutive dots somewhere in `s`. */
  lemma DoubleDotAt(s: string, i: int)
    ensures OccursAt(s, "..", i) <==> 0 <= i && i + 1 < |s| && s[i] == '.' && s[i + 1] == '.'
  {
    if 0 <= i && i + 1 < |s| && s[i] == '.' && s[i + 1] == '.' {
      assert s[i..i + 2] == "..";
    }
  }

  lemma NoDoubleDotAt(s: string, i: int)
    requires !Contains(s, "..")
    ensures !(0 <= i && i + 1 < |s| && s[i] == '.' && s[i + 1] == '.')
  {
    DoubleDotAt(s, i);
    if 0 <= i && i + 1 < |s| {
      assert !OccursAt(s, "..", i);
    }
  }

  /** `..` occurs in `stem + tail` exactly when it occurs in `stem` or the
      stem's last dot meets the tail's first dot, provided the tail starts
      with a single dot and holds no `..` of its own. */
  lemma {:induction false} DoubleDotInConcat(stem: string, tail: string)
    requires |tail| > 0 && tail[0] == '.'
    requires !Contains(tail, "..")
    ensures Contains(stem + tail, "..") <==>
            (Contains(stem, "..") || (|stem| > 0 && stem[|stem| - 1] == '.'))
  {
    var s := stem + tail;
    if Contains(s, "..") {
      var i :| OccursAt(s, "..", i);
      DoubleDotAt(s, i);
      if i + 1 < |stem| {
        DoubleDotAt(stem, i);
      } else if i >= |stem| {
        NoDoubleDotAt(tail, i - |stem|);
      }
    }
    if Contains(stem, "..") {
      var i :| OccursAt(stem, "..", i);
      DoubleDotAt(stem, i);
      DoubleDotAt(s, i);
    }
    if |stem| > 0 && stem[|stem| - 1] == '.' {
      DoubleDotAt(s, |stem| - 1);
    }
  }

  /** JavaScript `s.replace(/c/g, d)` for a single character `c`. */
  function ReplaceChar(s: string, c: char, d: char): (r: string)
    ensures |r| == |s|
    ensures forall i :: 0 <= i < |s| ==> r[i] == (if s[i] == c then d else s[i])
  {
    if |s| == 0 then "" else [if s[0] == c then d else s[0]] + ReplaceChar(s[1..], c, d)
  }

  /** If the suffix `p` ends `s`, replace that one occurrence by `q`
      (JavaScript `s.replace(/p$/, q)` for a literal `p`). */
  function ReplaceSuffix(s: string, p: string, q: string): (r: string)
    ensures IsSuffix(p, s) ==> r == s[..|s| - |p|] + q && IsSuffix(q, r)
    ensures !IsSuffix(p, s) ==> r == s
  {
    if IsSuffix(p, s) then s[..|s| - |p|] + q else s
  }

  /** JavaScript `parts.join(sep)`. */
  function Join(parts: seq<string>, sep: string): string
  {
    if |parts| == 0 then ""
    else if |parts| == 1 then parts[0]
    else Join(parts[..|parts| - 1], sep) + sep + parts[|parts| - 1]
  }

  /** The whitespace characters `String.prototype.trim` removes, restricted to
      the ASCII ones plus no-break space and the byte-order mark. */
  predicate IsSpace(c: char) {
    c == ' ' || c == '\t' || c == '\n' || c == '\r' ||
    c == '\U{000B}' || c == '\U{000C}' || c == '\U{00A0}' || c == '\U{FEFF}'
  }

  function TrimStart(s: string): (r: string)
    ensures IsSuffix(r, s)
    ensures |r| > 0 ==> !IsSpace(r[0])
    ensures forall i :: 0 <= i < |s| - |r| ==> IsSpace(s[i])
  {
    if |s| > 0 && IsSpace(s[0]) then TrimStart(s[1..]) else s
  }

  function TrimEnd(s: string): (r: string)
    ensures IsPrefix(r, s)
    ensures |r| > 0 ==> !IsSpace(r[|r| - 1])
    ensures forall i :: |r| <= i < |s| ==> IsSpace(s[i])
  {
    if |s| > 0 && IsSpace(s[|s| - 1]) then TrimEnd(s[..|s| - 1]) else s
  }

  /** `r` is the infix of `s` at index `i`, and everything around it is whitespace. */
  predicate CutAt(s: string, r: string, i: int) {
    && 0 <= i <= |s| - |r|
    && r == s[i..i + |r|]
    && (forall k :: 0 <= k < i ==> IsSpace(s[k]))
    && (forall k :: i + |r| <= k < |s| ==> IsSpace(s[k]))
  }

  /** JavaScript `s.trim()`: the longest infix of `s` that neither starts nor
      ends with whitespace; everything cut away is whitespace. */
  function Trim(s: string): (r: string)
    ensures exists i :: 0 <= i <= |s| && CutAt(s, r, i)
    ensures |r| > 0 ==> !IsSpace(r[0]) && !IsSpace(r[|r| - 1])
    ensures |r| == 0 <==> forall k :: 0 <= k < |s| ==> IsSpace(s[k])
  {
    var t := TrimStart(s);
    var r := TrimEnd(t);
    var i := |s| - |t|;
    assert CutAt(s, r, i);
    r
  }

  /** Ordinal string ordering: JavaScript `a < b` on strings, comparing
      characters by code point. */
  predicate LexLess(a: string, b: string) {
    if |a| == 0 then |b| > 0
    else if |b| == 0 then false
    else if a[0] != b[0] then a[0] < b[0]
    else LexLess(a[1..], b[1..])
  }

  lemma {:induction false} LexLessIrreflexive(a: string)
    ensures !LexLess(a, a)
  {
    if |a| > 0 {
      LexLessIrreflexive(a[1..]);
    }
  }

  lemma {:induction false} LexLessTransitive(a: string, b: string, c: string)
    requires LexLess(a, b) && LexLess(b, c)
    ensures LexLess(a, c)
  {
    if |a| > 0 && |b| > 0 && |c| > 0 && a[0] == b[0] && b[0] == c[0] {
      LexLessTransitive(a[1..], b[1..], c[1..]);
    }
  }

  /** Distinct strings are always ordered one way or the other. */
  lemma {:induction false} LexLessTotal(a: string, b: string)
    requires a != b
    ensures LexLess(a, b) || LexLess(b, a)
  {
    if |a| > 0 && |b| > 0 && a[0] == b[0] {
      assert a == [a[0]] + a[1..] && b == [b[0]] + b[1..];
      LexLessTotal(a[1..], b[1..]);
    }
  }

  lemma {:induction false} LexLessAsymmetric(a: string, b: string)
    requires LexLess(a, b)
    ensures !LexLess(b, a)
  {
    if |a| > 0 && |b| > 0 && a[0] == b[0] {
      LexLessAsymmetric(a[1..], b[1..]);
    }
  }
}

=== FILE: type_mapping.dfy ===
/** Field type to TypeScript type expression (typeMapping.ts).

    A `Printable` describes the expression and carries the imports it needs,
    instead of registering them on the output file as a side effect. The
    scalar-to-TypeScript table lives in a library outside this model, so a
    scalar stays a `Prim` holding its `ScalarType`, and rendering takes that
    table as a parameter. */
module TypeMapping {
  import opened Wrappers
  import opened Strings
  import opened Errors
  import opened Descriptors
  import opened Naming

  const WellKnownPackage := "google.protobuf"
  const WellKnownModule := "@bufbuild/protobuf/wkt"

  datatype Printable =
    | Prim(scalar: ScalarType)                  // scalarTypeScriptType(scalar, false)
    | Local(name: string)                       // a type declared in the same output file
    | Imported(symbol: string, from: string)    // gen.import(symbol, from, true)
    | ArrayOf(element: Printable)               // [element, "[]"]
    | RecordOf(value: Printable)                // ["Record<string, ", value, ">"]

  /** One type-only import request: a symbol and the module it comes from. */
  datatype Import = Import(symbol: string, from: string)

  /** What the mapper reads from its context: the file being generated and
      the base path of the `_pb` modules. `pbOut` is `None` when the context
      has no options to read it from. */
  datatype Context = Context(file: FileRef, pbOut: Option<string>)

  /** The text a `Printable` prints as, given the scalar table. */
  function Render(p: Printable, scalarName: ScalarType -> string): string
  {
    match p
    case Prim(s) => scalarName(s)
    case Local(n) => n
    case Imported(symbol, _) => symbol
    case ArrayOf(e) => Render(e, scalarName) + "[]"
    case RecordOf(v) => "Record<string, " + Render(v, scalarName) + ">"
  }

  /** The import requests a `Printable` makes. */
  function Imports(p: Printable): set<Import>
  {
    match p
    case Prim(_) => {}
    case Local(_) => {}
    case Imported(symbol, from) => {Import(symbol, from)}
    case ArrayOf(e) => Imports(e)
    case RecordOf(v) => Imports(v)
  }

  /** `typeName.split(".").pop()`: the text after the last dot. */
  function LastSegment(typeName: string): (r: string)
    ensures IsSuffix(r, typeName)
    ensures '.' !in r
    ensures |r| < |typeName| ==> typeName[|typeName| - |r| - 1] == '.'
  {
    if |typeName| == 0 then ""
    else if typeName[|typeName| - 1] == '.' then ""
    else LastSegment(typeName[..|typeName| - 1]) + [typeName[|typeName| - 1]]
  }

  /** A message with a fixed external TypeScript equivalent: a `Timestamp`
      in a file of package `google.protobuf`. */
  predicate IsWellKnown(message: MessageRef) {
    message.file.package == WellKnownPackage && LastSegment(message.typeName) == "Timestamp"
  }

  /** `wellKnownMessageReference`. */
  function WellKnownMessageReference(message: MessageRef): (r: Option<Printable>)
    ensures r.Some? <==> IsWellKnown(message)
    ensures r.Some? ==> r.value == Imported("Timestamp", WellKnownModule)
  {
    if message.file.package != WellKnownPackage then None
    else if LastSegment(message.typeName) == "Timestamp" then Some(Imported("Timestamp", WellKnownModule))
    else None
  }

  /** `enumReference`: always an import of the enum's name from the target
      file's `_pb` module, even for an enum of the current file. The module
      path is `pbImportPath` as written. */
  function EnumReference(enumDesc: EnumRef, context: Context): (r: Result<Printable, Error>)
    ensures context.pbOut.None? ==> r == Err(PbOutUndefined)
    ensures context.pbOut.Some? ==>
              r == Ok(Imported(enumDesc.name, PbImportPathAsWritten(context.file, enumDesc.file, context.pbOut.value)))
  {
    match context.pbOut
    case None => Err(PbOutUndefined)
    case Some(pbOut) => Ok(Imported(enumDesc.name, PbImportPathAsWritten(context.file, enumDesc.file, pbOut)))
  }

  /** `enumReference` with the relative-specifier test `pbImportPath`
      evidently intends: the import always names a relative module. */
  function EnumReferenceCorrected(enumDesc: EnumRef, context: Context): (r: Result<Printable, Error>)
    ensures r.Err? <==> context.pbOut.None?
    ensures r.Ok? ==> r.value.Imported? && r.value.symbol == enumDesc.name &&
                      (IsPrefix("./", r.value.from) || IsPrefix("../", r.value.from))
  {
    match context.pbOut
    case None => Err(PbOutUndefined)
    case Some(pbOut) => Ok(Imported(enumDesc.name, PbImportPath(context.file, enumDesc.file, pbOut)))
  }

  /** For an enum of a `.proto` file, both readings import the enum's name
      from a module path that ends in `_pb`; the as-written one starts with
      `.`, and neither depends on the file being generated. */
  lemma EnumImportPointsAtPbModule(enumDesc: EnumRef, context: Context, other: FileRef)
    requires context.pbOut.Some? && IsSuffix(ProtoSuffix, enumDesc.file.name)
    ensures var r := EnumReference(enumDesc, context);
            r.Ok? && r.value.Imported? && r.value.symbol == enumDesc.name &&
            IsPrefix(".", r.value.from) && IsSuffix("_pb", r.value.from)
    ensures var r := EnumReferenceCorrected(enumDesc, context);
            r.Ok? && IsSuffix("_pb", r.value.from)
    ensures EnumReference(enumDesc, context) == EnumReference(enumDesc, context.(file := other))
    ensures EnumReferenceCorrected(enumDesc, context) == EnumReferenceCorrected(enumDesc, context.(file := other))
  {
    var pbOut := context.pbOut.value;
    PbImportPathEndsInPb(context.file, enumDesc.file, pbOut);
    PbImportPathIgnoresFromFile(context.file, other, enumDesc.file, pbOut);
  }

  /** The module a cross-file message is imported from: `./` and the
      target's contract file name with `.ts` replaced by `.js`. */
  function ContractModule(file: FileRef): (r: Result<string, Error>)
    ensures r.Err? <==> GenerateContractFileName(file).Err?
    ensures r.Ok? ==> IsPrefix("./", r.value)
  {
    var name :- GenerateContractFileName(file);
    Ok("./" + ReplaceSuffix(name, ".ts", ".js"))
  }

  /** The module is the other file's contract file, imported under `.js`:
      `./stem.contract.js` for `stem.proto`, and the name with a final `.ts`
      turned into `.js` for any other name. */
  lemma ContractModuleNamesContractFile(file: FileRef)
    requires ContractModule(file).Ok?
    ensures IsSuffix(ProtoSuffix, file.name) ==>
              ContractModule(file).value == "./" + file.name[..|file.name| - |ProtoSuffix|] + ".contract.js"
    ensures !IsSuffix(ProtoSuffix, file.name) ==>
              ContractModule(file).value == "./" + ReplaceSuffix(file.name, ".ts", ".js")
  {
    var name := GenerateContractFileName(file).value;
    assert ContractModule(file).value == "./" + ReplaceSuffix(name, ".ts", ".js");
    if IsSuffix(ProtoSuffix, file.name) {
      var stem := file.name[..|file.name| - |ProtoSuffix|];
      assert name == stem + ContractSuffix;
      ContractTsToJs(stem);
    }
  }

  /** The contract file `stem.contract.ts` is imported as `stem.contract.js`. */
  lemma ContractTsToJs(stem: string)
    ensures ReplaceSuffix(stem + ContractSuffix, ".ts", ".js") == stem + ".contract.js"
  {
    var name := stem + ContractSuffix;
    assert name[|name| - 3..] == ".ts";
    assert name[..|name| - 3] == stem + ".contract";
  }

  /** `messageInputReference`: a well-known type first, then the local
      interface of the same file, then an import of the other file's
      contract module. */
  function MessageInputReference(message: MessageRef, context: Context): (r: Result<Printable, Error>)
    ensures IsWellKnown(message) ==> r == Ok(Imported("Timestamp", WellKnownModule))
    ensures !IsWellKnown(message) && message.file == context.file ==>
              r == Ok(Local(InputTypeName(message.typeName, message.file.package)))
    ensures !IsWellKnown(message) && message.file != context.file ==>
              (r.Err? <==> Contains(message.file.name, "..")) &&
              (r.Ok? ==> ContractModule(message.file).Ok? &&
                         r.value == Imported(InputTypeName(message.typeName, message.file.package),
                                             ContractModule(message.file).value))
  {
    ContractFileNameFailsIffDoubleDot(message.file);
    var wellKnown := WellKnownMessageReference(message);
    if wellKnown.Some? then Ok(wellKnown.value)
    else if message.file == context.file then Ok(Local(InputTypeName(message.typeName, message.file.package)))
    else
      var symbol := InputTypeName(message.typeName, message.file.package);
      var target :- ContractModule(message.file);
      Ok(Imported(symbol, target))
  }

  /** `valuePrintable`: a singular value of the given kind, failing when the
      field lacks the descriptor that kind needs. */
  function ValuePrintable(kind: ValueKind, field: Field, context: Context): (r: Result<Printable, Error>)
    ensures kind == ScalarKind ==>
              r == (if field.scalar.None? then Err(MissingScalar) else Ok(Prim(field.scalar.value)))
    ensures kind == EnumKind ==>
              r == (if field.enumDesc.None? then Err(MissingEnum) else EnumReference(field.enumDesc.value, context))
    ensures kind == MessageKind ==>
              r == (if field.message.None? then Err(MissingMessage)
                    else MessageInputReference(field.message.value, context))
  {
    match kind
    case ScalarKind =>
      if field.scalar.None? then Err(MissingScalar) else Ok(Prim(field.scalar.value))
    case EnumKind =>
      if field.enumDesc.None? then Err(MissingEnum) else EnumReference(field.enumDesc.value, context)
    case MessageKind =>
      if field.message.None? then Err(MissingMessage) else MessageInputReference(field.message.value, context)
  }

  /** `fieldTypePrintable`: dispatch on the field kind. A list is its
      element followed by `[]`; a map is a `Record` keyed by `string` whatever
      the declared key type; any other kind is refused. */
  function FieldTypePrintable(field: Field, context: Context): (r: Result<Printable, Error>)
    ensures field.fieldKind == ScalarField ==> r == ValuePrintable(ScalarKind, field, context)
    ensures field.fieldKind == EnumField ==> r == ValuePrintable(EnumKind, field, context)
    ensures field.fieldKind == MessageField ==> r == ValuePrintable(MessageKind, field, context)
    ensures field.fieldKind.ListField? ==>
              var element := ValuePrintable(field.fieldKind.listKind, field, context);
              (r.Ok? <==> element.Ok?) && (r.Ok? ==> r.value == ArrayOf(element.value))
    ensures field.fieldKind.MapField? ==>
              var value := ValuePrintable(field.fieldKind.mapKind, field, context);
              (r.Ok? <==> value.Ok?) && (r.Ok? ==> r.value == RecordOf(value.value))
    ensures field.fieldKind.UnrecognizedField? ==> r == Err(UnsupportedFieldKind(field.fieldKind.kind))
  {
    match field.fieldKind
    case ScalarField => ValuePrintable(ScalarKind, field, context)
    case EnumField => ValuePrintable(EnumKind, field, context)
    case MessageField => ValuePrintable(MessageKind, field, context)
    case ListField(listKind) =>
      var element :- ValuePrintable(listKind, field, context);
      Ok(ArrayOf(element))
    case MapField(_, mapKind) =>
      var value :- ValuePrintable(mapKind, field, context);
      Ok(RecordOf(value))
    case UnrecognizedField(kind) => Err(UnsupportedFieldKind(kind))
  }

  // ---------------------------------------------------------------------
  // Properties of the mapping

  /** When a value of the given kind cannot be mapped: its descriptor is
      missing, an enum has no `pbOut` to resolve against, or a message of
      another file has a contract name that the boundary check refuses. */
  predicate ValueFails(kind: ValueKind, field: Field, context: Context) {
    match kind
    case ScalarKind => field.scalar.None?
    case EnumKind => field.enumDesc.None? || context.pbOut.None?
    case MessageKind =>
      field.message.None? ||
      (!IsWellKnown(field.message.value) && field.message.value.file != context.file &&
       Contains(field.message.value.file.name, ".."))
  }

  /** When a field cannot be mapped. */
  predicate FieldFails(field: Field, context: Context) {
    match field.fieldKind
    case ScalarField => ValueFails(ScalarKind, field, context)
    case EnumField => ValueFails(EnumKind, field, context)
    case MessageField => ValueFails(MessageKind, field, context)
    case ListField(k) => ValueFails(k, field, context)
    case MapField(_, k) => ValueFails(k, field, context)
    case UnrecognizedField(_) => true
  }

  /** Mapping fails exactly in the cases `FieldFails` lists. */
  lemma {:induction false} FieldTypePrintableFailsIff(field: Field, context: Context)
    ensures FieldTypePrintable(field, context).Err? <==> FieldFails(field, context)
  {
    var kind := match field.fieldKind
      case ScalarField => ScalarKind
      case EnumField => EnumKind
      case MessageField => MessageKind
      case ListField(k) => k
      case MapField(_, k) => k
      case UnrecognizedField(_) => ScalarKind;
    if kind == MessageKind && field.message.Some? {
      var m := field.message.value;
      var r := MessageInputReference(m, context);
      assert !IsWellKnown(m) && m.file != context.file ==> (r.Err? <==> Contains(m.file.name, ".."));
    }
  }

  /** A list field prints as its element's expression followed by `[]`. */
  lemma ListRendersWithBrackets(field: Field, context: Context, scalarName: ScalarType -> string)
    requires field.fieldKind.ListField?
    requires FieldTypePrintable(field, context).Ok?
    ensures var element := ValuePrintable(field.fieldKind.listKind, field, context);
            element.Ok? &&
            Render(FieldTypePrintable(field, context).value, scalarName) == Render(element.value, scalarName) + "[]"
  {
  }

  /** The declared key type of a map field plays no part: the key is always
      `string`. */
  lemma MapKeyIgnored(field: Field, key: ScalarType, context: Context, scalarName: ScalarType -> string)
    requires field.fieldKind.MapField?
    ensures var other := field.(fieldKind := MapField(key, field.fieldKind.mapKind));
            FieldTypePrintable(other, context) == FieldTypePrintable(field, context)
    ensures FieldTypePrintable(field, context).Ok? ==>
              IsPrefix("Record<string, ", Render(FieldTypePrintable(field, context).value, scalarName))
  {
    var r := FieldTypePrintable(field, context);
    if r.Ok? {
      var text := Render(r.value, scalarName);
      assert text == "Record<string, " + Render(r.value.value, scalarName) + ">";
    }
  }

  /** The last segment of a dotted name is whatever follows its last dot. */
  lemma {:induction false} LastSegmentAfterDot(scope: string, segment: string)
    requires '.' !in segment
    ensures LastSegment(scope + "." + segment) == segment
    decreases |segment|
  {
    var t := scope + "." + segment;
    if |segment| > 0 {
      var init := segment[..|segment| - 1];
      assert t[..|t| - 1] == scope + "." + init;
      LastSegmentAfterDot(scope, init);
      assert init + [segment[|segment| - 1]] == segment;
    } else {
      assert t[|t| - 1] == '.';
    }
  }

  /** `google.protobuf.Timestamp` (and any `google.protobuf` type whose last
      segment is `Timestamp`) maps to the `Timestamp` of the well-known-types
      module, from any file. */
  lemma TimestampIsImportedFromWkt(message: MessageRef, context: Context, scope: string)
    requires message.file.package == WellKnownPackage
    requires message.typeName == scope + ".Timestamp"
    ensures MessageInputReference(message, context) == Ok(Imported("Timestamp", WellKnownModule))
  {
    assert message.typeName == scope + "." + "Timestamp";
    LastSegmentAfterDot(scope, "Timestamp");
  }

  /** Any other `google.protobuf` message is resolved like an ordinary one:
      locally in its own file, by contract import elsewhere. */
  lemma OtherWellKnownPackageTypesFallThrough(message: MessageRef, context: Context)
    requires message.file.package == WellKnownPackage
    requires LastSegment(message.typeName) != "Timestamp"
    ensures message.file == context.file ==>
              MessageInputReference(message, context) == Ok(Local(InputTypeName(message.typeName, message.file.package)))
    ensures message.file != context.file && !Contains(message.file.name, "..") ==>
              MessageInputReference(message, context).Ok? &&
              MessageInputReference(message, context).value.Imported?
  {
  }

  /** An enum field maps to an import from the enum file's `_pb` module,
      even when the enum is declared in the file being generated. */
  lemma EnumAlwaysImported(field: Field, context: Context)
    requires field.fieldKind == EnumField && field.enumDesc.Some? && context.pbOut.Some?
    ensures var e := field.enumDesc.value;
            FieldTypePrintable(field, context) ==
              Ok(Imported(e.name, PbImportPathAsWritten(context.file, e.file, context.pbOut.value)))
  {
  }

  /** Every import a mapped field requests is either the well-known-types
      module or a path starting with `.`; one that is not `./…` comes from an
      enum's `_pb` module path. A relative module is guaranteed only by the
      corrected path (`EnumReferenceCorrected`): as written, a `pbOut` of
      `.gen` yields the bare specifier `.gen/a_pb`. */
  lemma {:induction false} ImportsAreResolvable(field: Field, context: Context)
    requires FieldTypePrintable(field, context).Ok?
    ensures forall i :: i in Imports(FieldTypePrintable(field, context).value) ==>
              i.from == WellKnownModule || IsPrefix(".", i.from)
    ensures forall i :: i in Imports(FieldTypePrintable(field, context).value) &&
                        i.from != WellKnownModule && !IsPrefix("./", i.from) ==>
              field.enumDesc.Some? && context.pbOut.Some? &&
              i.from == PbImportPathAsWritten(context.file, field.enumDesc.value.file, context.pbOut.value)
  {
    var p := FieldTypePrintable(field, context).value;
    var kind := match field.fieldKind
      case ScalarField => ScalarKind
      case EnumField => EnumKind
      case MessageField => MessageKind
      case ListField(k) => k
      case MapField(_, k) => k
      case UnrecognizedField(_) => ScalarKind;
    var v := ValuePrintable(kind, field, context);
    assert v.Ok? && Imports(p) == Imports(v.value);
    ValueImportsResolvable(kind, field, context);
  }

  /** The same for one value kind. */
  lemma ValueImportsResolvable(kind: ValueKind, field: Field, context: Context)
    requires ValuePrintable(kind, field, context).Ok?
    ensures forall i :: i in Imports(ValuePrintable(kind, field, context).value) ==>
              i.from == WellKnownModule || IsPrefix(".", i.from)
    ensures forall i :: i in Imports(ValuePrintable(kind, field, context).value) &&
                        i.from != WellKnownModule && !IsPrefix("./", i.from) ==>
              field.enumDesc.Some? && context.pbOut.Some? &&
              i.from == PbImportPathAsWritten(context.file, field.enumDesc.value.file, context.pbOut.value)
  {
    var v := ValuePrintable(kind, field, context).value;
    match kind
    case ScalarKind =>
      assert Imports(v) == {};
    case EnumKind =>
      var e := field.enumDesc.value;
      var from := PbImportPathAsWritten(context.file, e.file, context.pbOut.value);
      assert v == Imported(e.name, from);
      assert Imports(v) == {Import(e.name, from)};
    case MessageKind =>
      var m := field.message.value;
      if IsWellKnown(m) {
        assert Imports(v) == {Import("Timestamp", WellKnownModule)};
      } else if m.file == context.file {
        assert Imports(v) == {};
      } else {
        var c := ContractModule(m.file);
        assert v == Imported(InputTypeName(m.typeName, m.file.package), c.value);
        DotSlashStartsWithDot(c.value);
        assert Imports(v) == {Import(InputTypeName(m.typeName, m.file.package), c.value)};
      }
  }

  lemma DotSlashStartsWithDot(s: string)
    requires IsPrefix("./", s)
    ensures IsPrefix(".", s)
  {
    assert s[..1] == s[..2][..1];
  }
}

=== FILE: validate_rules.dfy ===
/** The `buf.validate.field` rule that decides whether a field is required
    (validateRules.ts). Building the extension registry and decoding option
    bytes happen in a library outside this model: the registry is a map from
    extension name to descriptor, and a field's decoded option is its
    `rules`. */
module ValidateRules {
  import opened Wrappers
  import opened Errors
  import opened Descriptors

  const ValidateFieldExtensionName := "buf.validate.field"

  /** A resolved extension descriptor. */
  datatype Extension = Extension(typeName: string, number: int)

  /** `resolveValidateFieldExtension`: look the extension up in the registry
      built from the bundled validate schema and every loaded file; its
      absence is fatal for the whole run. */
  function ResolveValidateFieldExtension(registry: map<string, Extension>): (r: Result<Extension, Error>)
    ensures r.Err? <==> ValidateFieldExtensionName !in registry
    ensures r.Err? ==> r.error == MissingExtension(ValidateFieldExtensionName)
    ensures r.Ok? ==> r.value == registry[ValidateFieldExtensionName]
  {
    if ValidateFieldExtensionName in registry then Ok(registry[ValidateFieldExtensionName])
    else Err(MissingExtension(ValidateFieldExtensionName))
  }

  /** `isRequiredField`: a field without the option is not required; with
      it, the field is required exactly when `required` is set to true. */
  function IsRequiredField(field: Field, extension: Extension): (r: bool)
    ensures field.rules.None? ==> !r
    ensures field.rules.Some? ==> (r <==> field.rules.value.required == Some(true))
  {
    match field.rules
    case None => false
    case Some(rules) => rules.required == Some(true)
  }

  /** Requiredness depends on the field's own option value alone: neither its
      other attributes nor the field's message or file play a part. */
  lemma RequiredDependsOnlyOnOwnRules(f: Field, g: Field, extension: Extension)
    requires f.rules == g.rules
    ensures IsRequiredField(f, extension) == IsRequiredField(g, extension)
  {
  }
}

=== FILE: wrappers.dfy ===
/** `Option` for the source's `undefined`, `Result` for a value or the
    error the source would throw (usable with `:-`), and `MapResult`, the
    first-error map the generator loops perform. */
module Wrappers {

  /** A value that may be absent (the source's `undefined`). */
  datatype Option<+T> = None | Some(value: T)

  /** Either a value or the error the source would have thrown. */
  datatype Result<+T, +E> = Ok(value: T) | Err(error: E) {

    predicate IsFailure() {
      Err?
    }

    function PropagateFailure<U>(): Result<U, E>
      requires Err?
    {
      Err(error)
    }

    function Extract(): T
      requires Ok?
    {
      value
    }
  }

  /** `f` succeeds on every element before index `k` and fails with `e`
      on the element at `k`. */
  ghost predicate FailsFirstAt<T, U, E>(xs: seq<T>, f: T -> Result<U, E>, k: int, e: E) {
    0 <= k < |xs| && f(xs[k]) == Err(e) && forall j :: 0 <= j < k ==> f(xs[j]).Ok?
  }

  /** Apply a fallible step to every element in order, stopping at the
      first failure, as a `for` loop that throws does. */
  function MapResult<T, U, E>(xs: seq<T>, f: T -> Result<U, E>): (r: Result<seq<U>, E>)
    ensures r.Ok? <==> forall k :: 0 <= k < |xs| ==> f(xs[k]).Ok?
    ensures r.Ok? ==> |r.value| == |xs| && forall k :: 0 <= k < |xs| ==> f(xs[k]) == Ok(r.value[k])
    ensures r.Err? ==> exists k :: FailsFirstAt(xs, f, k, r.error)
  {
    if |xs| == 0 then Ok([])
    else
      match f(xs[0])
      case Err(e) =>
        assert FailsFirstAt(xs, f, 0, e);
        Err(e)
      case Ok(head) =>
        match MapResult(xs[1..], f)
        case Err(e) =>
          assert forall k :: FailsFirstAt(xs[1..], f, k, e) ==> FailsFirstAt(xs, f, k + 1, e);
          Err(e)
        case Ok(rest) =>
          Ok([head] + rest)
  }
}
